=== FILE: README.md ===
# ProVeg donation and newsletter submission, modelled in Dafny

This project models the two remote operations of the ProVeg CiviCRM
extension:

- `ProvegDonation.submit` handles one donation from a web form. It checks that a recurring donation
  is paid by SEPA, resolves the gender code and then the donor contact, and drafts the
  contribution. It then pays through exactly one branch: a SEPA mandate whose contribution or
  recurring contribution is loaded afterwards, or a completed PayPal contribution. After that it
  may create a membership and link it to the recurring contribution, and it may subscribe the donor
  to the newsletter. If any of these steps raises, the catch block rolls back the open transaction
  frame, records a "Failed contribution processing" activity on a best-effort basis, and returns
  the original error.
- `ProvegNewsletterSubscription.submit` picks a contact, either the given id or the contact found
  or created for an e-mail address. It then sets that contact's status in the configured newsletter
  group to Added or Removed.

Each operation is a pure function of the request and a record of the host's answers, with one
field per call the operation may issue. A call either returns or raises a `CRM_Core_Exception`. The
result pairs the response envelope with the ordered trace of host calls the operation issued. The
properties are stated over that response and that trace.

Modules:

- `Php`: PHP's `empty()`, exceptions, host replies and configuration settings.
- `PhpArray`: the ordered PHP array the gender options are collected into, and `array_search`.
- `Requests`: the parameter sets of the two operations.
- `Host`: the calls and the data each one carries, call counting, and contact resolution.
- `NewsletterSubscription`: the newsletter operation and the group state it leaves behind.
- `Donation`: the donation operation, step by step.
- `DonationTrace`: a donation trace cut into the steps that issued it.
- `DonationProperties`: what a donation submission promises.

A few facts about the code that the model keeps as they are:

- The payment instruments are `sepa` and `paypal`.
- The unknown-gender error carries the bare code 0.
- For a recurring donation the draft's `amount` is divided by 100 twice
  (`ProvegDonation/Submit.php:104`). That value never reaches a host call:
  - recurring donations only pass with SEPA;
  - the SEPA branch overwrites `amount` with the request's amount divided once (line 145)
    before any call that receives the contribution data.

  So the mandate always carries euros, and `DonationProperties.MandateCallCarriesEuros` states
  this.
- The donation's newsletter step calls `ProvegNewsletterSubscription.submit` with the donor's id
  and the flag 1. The model runs `NewsletterSubscription.Submit` for that request against the
  host's answers to the nested operation. A refusal becomes the exception the nested API call
  raises, with the same message, code and extras.

## Model

| member | source | states |
|---|---|---|
| PhpArray.Lookup | api/v3_disabled/ProvegDonation/Submit.php:66-69 | reading `$genders[$k]` yields a value exactly when k was assigned |
| PhpArray.Assign | api/v3_disabled/ProvegDonation/Submit.php:68 | assigning a key keeps the keys distinct, sets its value and leaves every other key's value alone; an existing key keeps its position, a new key is appended at the end |
| PhpArray.Search | api/v3_disabled/ProvegDonation/Submit.php:72-75 | `array_search` returns the first key in array order that holds the wanted name, or `false` exactly when no key holds it |
| PhpArray.Build | api/v3_disabled/ProvegDonation/Submit.php:66-69 | the gender table built by the loop has distinct keys |
| PhpArray.BuildLookup | api/v3_disabled/ProvegDonation/Submit.php:66-69 | after the loop a key holds a name exactly when the last option with that value carries that name; later options overwrite earlier ones |
| Host.ResolveContact | api/v3_disabled/ProvegDonation/Submit.php:83-88 | the lookup is one call; a non-zero id is used, id 0 is `invalid_format` "could not be found or created", and a raised lookup passes its exception through |
| NewsletterSubscription.Submit | api/v3_disabled/ProvegNewsletterSubscription/Submit.php:35-79 | a given id skips the lookup; otherwise the e-mail is mandatory (`mandatory_missing` with fields, entity and action) and alone is resolved; exactly one group call once a contact is known, none before, with the configured group (default 1000), that contact and Added or Removed after the flag; success exactly when the group call returns; errors keep message, code and extras; no compensation |
| NewsletterSubscription.ResubmitLeavesGroupsUnchanged | api/v3_disabled/ProvegNewsletterSubscription/Submit.php:35-66 | a successful submission repeated with the same settings, where the second lookup finds the contact the first resolved, sets the same status for the same contact, so the group memberships stay as the first submission left them |
| NewsletterSubscription.SubscribedStatus | api/v3_disabled/ProvegNewsletterSubscription/Submit.php:61-68 | after a successful submission the subscriber's status in the newsletter group is the one the flag asks for |
| NewsletterSubscription.ReplayChangesNothing | api/v3_disabled/ProvegNewsletterSubscription/Submit.php:61-66 | group statuses are overwritten, not accumulated: replaying any trace of calls leaves the state the first pass left |
| Donation.ResolveGender | api/v3_disabled/ProvegDonation/Submit.php:61-81 | an empty code fetches nothing and sets no gender; otherwise the options are fetched once, a fetch error passes through, 'm' and 'f' resolve, and any other code raises code 0 |
| Donation.GenderOptionNamed | api/v3_disabled/ProvegDonation/Submit.php:66-76 | 'm'/'f' yield the first option value in table order whose name is Male/Female, or PHP's `false` exactly when no value carries that name |
| Donation.BankAccountCheckOrder | api/v3_disabled/ProvegDonation/Submit.php:113-138 | IBAN given, IBAN valid, BIC given, BIC valid, in that order; a verifier runs only once its field is given and earlier checks passed; the first failure is reported as `invalid_format` with its message |
| Donation.MandateLinkage | api/v3_disabled/ProvegDonation/Submit.php:148-176 | the mandate is created first; a contribution entity is loaded as a contribution; a recurring entity is loaded as a recurring contribution and its id kept; an empty entity loads nothing; any other table is "Could not load contribution for SEPA mandate." |
| Donation.MembershipAnnual | api/v3_disabled/ProvegDonation/Submit.php:221-224 | the annual amount computed at line 106 reaches the membership only for a recurring donation of a non-zero amount, as amount × frequency / 100 |
| DonationTrace.Decompose | api/v3_disabled/ProvegDonation/Submit.php:36-305 | the trace is campaign extraction, then the donor, payment, membership, newsletter and catch-block calls, each part holding only its own step's calls |
| DonationTrace.SubmitResponse | api/v3_disabled/ProvegDonation/Submit.php:261-305 | success exactly when every step succeeded, answering with the payment's contribution and the newsletter result; otherwise an error carrying the message, code and extras of the exception the try block ended with |
| DonationTrace.ProcessError | api/v3_disabled/ProvegDonation/Submit.php:42-259 | the try block ends with the exception of its first failing step |
| DonationTrace.RecurringCaptured | api/v3_disabled/ProvegDonation/Submit.php:163-164 | a recurring contribution id is captured exactly when a SEPA mandate links a recurring contribution, and it is the mandate's entity id |
| DonationTrace.MembershipCounts | api/v3_disabled/ProvegDonation/Submit.php:201-244 | a membership step that succeeded made no call without a type; with one it is exactly the creation, the reload by the created id, and the link of the reloaded membership to the mandate's recurring contribution exactly when the mandate links one, in this order |
| DonationTrace.MembershipStepOrder | api/v3_disabled/ProvegDonation/Submit.php:229-243 | the membership step issues the creation first, then the reload by the id the creation answered, then the link to the recurring contribution as its last call, each at most once |
| DonationProperties.RecurringNeedsSepaFirst | api/v3_disabled/ProvegDonation/Submit.php:43-48 | a recurring non-SEPA donation is refused with `invalid_format` before any lookup or payment; the trace is extraction plus the catch block |
| DonationProperties.UnknownGenderRefused | api/v3_disabled/ProvegDonation/Submit.php:70-80 | a gender code other than m/f is refused with code 0 before the donor lookup and any payment |
| DonationProperties.UnresolvedContactRefused | api/v3_disabled/ProvegDonation/Submit.php:83-88 | a lookup without an id, or a failing lookup, ends the submission after exactly one lookup and before any payment, with the matching error |
| DonationProperties.DonorLookedUpOnce | api/v3_disabled/ProvegDonation/Submit.php:83 | the donor is looked up at most once |
| DonationProperties.DonorLookupData | api/v3_disabled/ProvegDonation/Submit.php:52-83 | a donor lookup carries the request's name, e-mail and address and the resolved gender, none exactly for an empty code |
| DonationProperties.MandateCallCarriesEuros | api/v3_disabled/ProvegDonation/Submit.php:91-152 | a created mandate is a SEPA one for the donor, with the configured financial type and creditor, the campaign, the configured source, the receive date or else the request time, and the next valid start date; it carries the amount divided once, the request's IBAN and BIC, RCUR exactly for recurring donations with monthly instalments and no total, OOFF with the total otherwise |
| DonationProperties.PaypalCallCompleted | api/v3_disabled/ProvegDonation/Submit.php:91-188 | a directly created contribution is a one-off PayPal one for the donor, with the configured financial type, the campaign, the configured source and the receive date or else the request time; it is Completed, with the configured instrument (default 12) and the amount in euros |
| DonationProperties.BankAccountChecksFirst | api/v3_disabled/ProvegDonation/Submit.php:112-138 | a failing bank-account check ends the submission with that check's message before any mandate |
| DonationProperties.OnePaymentBranch | api/v3_disabled/ProvegDonation/Submit.php:110-198 | at most one contribution-creating call; exactly one on success, by SEPA or PayPal; any other instrument is refused without one |
| DonationProperties.MandateUnlinkedRefused | api/v3_disabled/ProvegDonation/Submit.php:157-175 | a mandate linked to neither contribution kind is refused with `invalid_format` |
| DonationProperties.PaidThroughIsRecurring | api/v3_disabled/ProvegDonation/Submit.php:235-244 | a membership update happens only for a SEPA mandate linking a recurring contribution, sets the reloaded membership's paid-through contract to that entity id |
| DonationProperties.ReloadFollowsCreate | api/v3_disabled/ProvegDonation/Submit.php:229-233 | in any trace a membership reload comes right after the creation of the donor's membership and reloads the id that creation answered |
| DonationProperties.UpdateFollowsReload | api/v3_disabled/ProvegDonation/Submit.php:229-243 | in any trace a membership link comes right after the creation and the reload by the created id |
| DonationProperties.MembershipOnSuccess | api/v3_disabled/ProvegDonation/Submit.php:200-249 | after success, the membership was created and reloaded exactly when a type was given, and linked exactly when the mandate links a recurring contribution; the calls are consecutive, the reload uses the created id and the link the reloaded membership and the mandate's entity |
| DonationProperties.MembershipCallCarriesRequest | api/v3_disabled/ProvegDonation/Submit.php:201-230 | a created membership has the donor, type, campaign and configured source, the subtype only when given, a year's term from the start date the host answers, join date today, and the annual amount only when non-zero |
| DonationProperties.NewsletterOnSuccess | api/v3_disabled/ProvegDonation/Submit.php:251-261 | after success, the newsletter sub-call was made exactly when asked for, its only extra value is the nested operation's group result, and the values are the payment's contribution |
| DonationProperties.NewsletterCallSubscribesDonor | api/v3_disabled/ProvegDonation/Submit.php:252-257 | a newsletter sub-call is made only when asked for and subscribes the resolved donor with flag 1 |
| DonationProperties.NewsletterSubCallAddsDonor | api/v3_disabled/ProvegDonation/Submit.php:253-257 | the nested newsletter operation run for the sub-call skips the e-mail lookup and issues one group call adding the donor to the configured newsletter group |
| DonationProperties.DonorAddedOnSuccess | api/v3_disabled/ProvegDonation/Submit.php:251-258 | a successful donation that asked for the newsletter leaves the donor Added to the configured newsletter group, whatever the memberships were before |
| DonationProperties.CompensationOnFailure | api/v3_disabled/ProvegDonation/Submit.php:263-294 | a failure rolls back once exactly when a frame is open and ends with one Scheduled follow-up activity, dated at the request time, from the acting user, assigned as configured, targeting the donor once resolved, in the request's campaign, carrying the parameters |
| DonationProperties.FailureNotices | api/v3_disabled/ProvegDonation/Submit.php:294-302 | the error reports the created activity, with a notice when no assignee is configured, or the activity's own failure with its notice |
| DonationProperties.NoCompensationOnSuccess | api/v3_disabled/ProvegDonation/Submit.php:42-262 | a successful submission neither rolls back nor records an activity |
| DonationProperties.ErrorNotMaskedByActivity | api/v3_disabled/ProvegDonation/Submit.php:263-305 | whatever the activity call answers and whoever is assigned, the submission fails exactly when it fails without that change, and the error carries the message, code and extras of the exception the try block ended with |
| DonationProperties.MandateErrorPassesThrough | api/v3_disabled/ProvegDonation/Submit.php:148-152 | a mandate creation the host refuses, for a resolved donor on the SEPA branch with passing bank account checks, fails the submission with that refusal's message, code and extras |
| DonationProperties.NewsletterRefusalPassesThrough | api/v3_disabled/ProvegDonation/Submit.php:252-259 | a refused nested newsletter submission, after payment and membership succeeded, fails the donation with the refusal's message, code and extras |
| DonationProperties.PaymentSuccessValues | api/v3_disabled/ProvegDonation/Submit.php:156-189 | a successful submission paid by SEPA or PayPal; on SEPA it answers with the contribution or recurring contribution the mandate's entity table names, after loading it by the mandate's entity id, with nothing when the entity id is empty; on PayPal it answers with the contribution it created |
| Donation.NestedSubscription | api/v3_disabled/ProvegDonation/Submit.php:252-259 | the nested newsletter call raises exactly when the nested submission refuses, with the refusal's message, code and extras, and otherwise answers with the nested result |

## Left out

- Debug logging (`PROVEG_API_LOGGING`, the membership debug lines) is left out. It has no effect on
  the result.
- The `_spec` functions, the API parameter metadata and `provegapi.php` are not modelled. They
  declare parameters and do not compute anything.
- Some host answers are parameters of the model:
  - `extractCampaign` is one, the campaign id it puts back into the parameters;
  - `getSetting` is a settings map with the source's defaults;
  - `getSource`, `getStartDate`, the request time, the logged-in contact and the configured
    assignee are values the host supplies.
- The IBAN and BIC checksum rules belong to the SEPA extension. Each verifier is an answer: empty
  for a valid code, or the error message.
- Transactions are the trace event `ForceRollback`. Which writes the rollback undoes is not
  modelled.
- Dates are kept symbolic (`DateExpr`): the formatted timestamp, start + 1 year - 1 day, and today.
  Calendar arithmetic is not modelled.
- Money is exact rational arithmetic. PHP's float rounding is not modelled.
- `resolveCustomFields` is not modelled. It renames custom-field aliases inside the host, and the
  model keeps the membership subtype, annual amount and paid-through entries under their own names.
- The success envelope's echo of the request parameters is left out. The model keeps the values and
  the newsletter extra.
- Only `CRM_Core_Exception` is modelled. Other exception types escape both operations uncaught.
- A host call that itself raises still appears in the trace, because it was issued. "No group call
  on error" holds for errors raised before that call.
- A mandate without an entity id leaves `$contribution` unset in the source. The model answers
  success with no contribution value.
- `DonationTrace.SubmitResponse`: the success payload is the contribution and the newsletter result.
  The `extra` key of the envelope is not modelled separately.
- The donation trace records the nested newsletter submission as one call. The nested operation's
  own group call appears in its own trace, which `DonationProperties.DonorAddedOnSuccess` applies
  to the group state.
- The follow-up activity's `activity_type_id` and `status_id` (`ProvegDonation/Submit.php:285`,
  line 289) are option-value lookups in the host. The model carries the option names
  (`provegapi_failed_contribution_processing`, `Scheduled`) in their place and does not model the
  lookups.
- Repeated host reads with the same arguments are one answer each. `getStartDate` (lines 146 and
  216 of `ProvegDonation/Submit.php`) is `startDate` for both the mandate and the membership.
  `getSource` (lines 96 and 207) is `source` for both the contribution and the membership.
- The nested newsletter operation's settings are a field of its own host record. Both operations
  read the same configuration, so a host where the two settings maps differ describes no real
  system. The model does not require them to agree.
- The group-membership state (`NewsletterSubscription.GroupState`) assumes that
  `GroupContact.create` overwrites a contact's status in a group. `ReplayChangesNothing` and
  `ResubmitLeavesGroupsUnchanged` hold under that assumption. Group history and subscription
  records kept by the host are not modelled.

=== FILE: donation.dfy ===
/** `ProvegDonation.submit`: validates the request, resolves the donor,
    creates the contribution through exactly one payment branch (a SEPA
    mandate or a completed PayPal contribution), optionally adds a membership
    and a newsletter subscription, and on any exception rolls back, records a
    follow-up activity and returns the original error. */
module Donation {
  import opened Php
  import opened Requests
  import opened Host
  import PhpArray
  import NewsletterSubscription

  /** The mandate `SepaMandate.createfull` returns: the entity its
      contribution is stored as. An id of 0 stands for an empty one. */
  datatype Mandate = Mandate(entityId: int, entityTable: string)

  /** The host's answers to every call the operation may issue, and the
      values it reads from the environment. */
  datatype DonationHost = DonationHost(
    campaignId: string,                          // campaign_id after campaign extraction
    genderOptions: Reply<seq<(string, string)>>, // OptionValue.get: (value, name) pairs
    contact: Reply<int>,                         // contact lookup or creation
    settings: map<string, int>,                  // stored configuration settings
    source: string,                              // configured contribution source
    requestTime: int,                            // time of the request
    ibanError: string,                           // IBAN verifier answer, empty when valid
    bicError: string,                            // BIC verifier answer, empty when valid
    startDate: string,                           // next valid start date (getStartDate)
    mandate: Reply<Mandate>,                     // SepaMandate.createfull
    contribution: Reply<Record>,                 // Contribution.getsingle
    recurring: Reply<Record>,                    // ContributionRecur.getsingle
    created: Reply<Record>,                      // Contribution.create
    membershipCreated: Reply<Record>,            // Membership.create
    membershipLoaded: Reply<Record>,             // Membership.getsingle
    membershipUpdated: Reply<Record>,            // second Membership.create
    subscription: NewsletterSubscription.SubscriptionHost, // as the nested submit sees it
    hasFrame: bool,                              // a transaction frame is open
    assignee: Option<int>,                       // contact configured for failures
    loggedInContact: int,                        // acting user
    activity: Reply<Record>)                     // Activity.create

  /** What the payment branch leaves behind: the loaded or created
      contribution (None when the mandate names no entity) and the recurring
      contribution id when the mandate is recurring. */
  datatype Payment = Payment(contribution: Option<Record>, recurringId: Option<int>)

  datatype Donated = Donated(contribution: Option<Record>, newsletter: Option<Record>)

  /** The body of the try block: its calls, its result or exception, and the
      contact id it had reached (0 before one was resolved). */
  datatype Processed = Processed(calls: seq<Call>, reply: Reply<Donated>, contactId: int)

  datatype ActivityResult =
    | ActivityCreated(activity: Record)
    | ActivityFailed(message: string, extra: Extra)

  /** The notices about the follow-up activity added to an error response. */
  datatype Notice = Notice(result: ActivityResult, messages: seq<string>)

  datatype DonationResponse =
    | Success(values: Option<Record>, newsletter: Option<Record>)
    | Error(message: string, code: ErrorCode, extra: Extra, notice: Notice)

  datatype Run = Run(calls: seq<Call>, response: DonationResponse)

  const RecurringNeedsSepa := "Recurring donations can only be submitted with SEPA."
  const UnknownGender := "Could not determine option value from given gender."
  const IbanMissing := "For donations via SEPA, the IBAN must be provided."
  const BicMissing := "For donations via SEPA, the SWIFT code (BIC) must be provided."
  const MandateUnlinked := "Could not load contribution for SEPA mandate."
  const BadInstrument := "Invalid payment instrument."
  const FailedActivityType := "provegapi_failed_contribution_processing"
  const FailedActivitySubject := "Failed ProVeg API contribution processing"
  const NoAssigneeNotice :=
    "No contact ID is configured for assigning an activity of the type \"Failed contribution processing\". The activity has not been assigned to a contact."
  const ActivityFailedNotice := "Failed creating an activity of the type \"Failed contribution processing\"."

  /** The request as the try block sees it, with the extracted campaign. */
  function Params(req: DonationRequest, host: DonationHost): DonationRequest {
    req.(campaignId := host.campaignId)
  }

  function CheckRecurrence(req: DonationRequest): Option<Exception> {
    if req.frequency != 0 && req.paymentInstrument != "sepa" then
      Some(Exception(RecurringNeedsSepa, InvalidFormat, NoExtra))
    else None
  }

  function GenderFound(key: Option<string>): GenderField {
    if key.Some? then GenderId(key.value) else GenderNotFound
  }

  /** The gender option value for the request's gender code, if one is given. */
  function ResolveGender(req: DonationRequest, host: DonationHost): (r: Attempt<GenderField>)
    ensures r.calls == (if EmptyString(req.gender) then [] else [GetGenderOptions])
    ensures EmptyString(req.gender) ==> r.reply == Returned(NoGender)
    ensures !EmptyString(req.gender) && host.genderOptions.Raised? ==>
              r.reply == Raised(host.genderOptions.error)
    ensures (req.gender == "m" || req.gender == "f") && host.genderOptions.Returned? ==> r.reply.Returned?
    // any other code is an error with the bare code 0
    ensures !EmptyString(req.gender) && host.genderOptions.Returned? &&
            req.gender != "m" && req.gender != "f" ==>
              r.reply == Raised(Exception(UnknownGender, CodeZero, NoExtra))
  {
    if EmptyString(req.gender) then Attempt([], Returned(NoGender))
    else
      match host.genderOptions
      case Raised(e) => Attempt([GetGenderOptions], Raised(e))
      case Returned(options) =>
        var genders := PhpArray.Build(options);
        if req.gender == "m" then
          Attempt([GetGenderOptions], Returned(GenderFound(PhpArray.Search(genders, "Male"))))
        else if req.gender == "f" then
          Attempt([GetGenderOptions], Returned(GenderFound(PhpArray.Search(genders, "Female"))))
        else Attempt([GetGenderOptions], Raised(Exception(UnknownGender, CodeZero, NoExtra)))
  }

  /** 'm' and 'f' select the first option value, in the order of the table
      PHP builds from the options, named Male or Female, and PHP's false when
      no value carries that name. */
  lemma GenderOptionNamed(req: DonationRequest, host: DonationHost)
    requires host.genderOptions.Returned? && (req.gender == "m" || req.gender == "f")
    ensures var r := ResolveGender(req, host);
            var name := if req.gender == "m" then "Male" else "Female";
            var table := PhpArray.Build(host.genderOptions.value);
            && r.reply.Returned?
            && (r.reply.value.GenderId? ==> PhpArray.Lookup(table, r.reply.value.value) == Some(name))
            && (r.reply.value.GenderId? ==>
                  forall j :: 0 <= j < |table| && table[j].1 == name ==>
                    r.reply.value.value in PhpArray.Keys(table[..j + 1]))
            && (r.reply.value == GenderNotFound <==> forall k :: PhpArray.Lookup(table, k) != Some(name))
  {
  }

  function DonorData(req: DonationRequest, gender: GenderField): ContactData {
    ContactData(
      map["first_name" := req.firstName, "last_name" := req.lastName, "email" := req.email,
          "street_address" := req.streetAddress, "city" := req.city,
          "postal_code" := req.postalCode, "country" := req.country],
      gender)
  }

  /** The contribution data before the payment branch adds its entries. */
  function ContributionDraft(req: DonationRequest, host: DonationHost, contactId: int): Draft {
    var total := req.amount as real / 100.0;
    var draft := Draft(
      GetSetting(host.settings, "financial_type_id", 1),
      req.campaignId,
      contactId,
      Some(total),
      host.source,
      Timestamp(if !EmptyInt(req.receiveDate) then req.receiveDate else host.requestTime),
      None, None, None);
    if req.frequency != 0 then
      draft.(frequencyUnit := Some("month"),
             frequencyInterval := Some(12.0 / req.frequency as real),
             amount := Some(total / 100.0),
             totalAmount := None)
    else draft
  }

  /** The annual amount, set for recurring donations only. */
  function AnnualAmount(req: DonationRequest): Option<real> {
    if req.frequency != 0 then Some(req.amount as real * req.frequency as real / 100.0) else None
  }

  /** The IBAN and BIC checks of the SEPA branch. */
  function CheckBankAccount(req: DonationRequest, host: DonationHost): Attempt<()> {
    if EmptyString(req.iban) then
      Attempt([], Raised(Exception(IbanMissing, InvalidFormat, NoExtra)))
    else if !EmptyString(host.ibanError) then
      Attempt([VerifyIban(req.iban)], Raised(Exception(host.ibanError, InvalidFormat, NoExtra)))
    else if EmptyString(req.bic) then
      Attempt([VerifyIban(req.iban)], Raised(Exception(BicMissing, InvalidFormat, NoExtra)))
    else if !EmptyString(host.bicError) then
      Attempt([VerifyIban(req.iban), VerifyBic(req.bic)],
              Raised(Exception(host.bicError, InvalidFormat, NoExtra)))
    else Attempt([VerifyIban(req.iban), VerifyBic(req.bic)], Returned(()))
  }

  /** The mandate request: the contribution data with the mandate entries,
      whose amount replaces the one the draft may carry. */
  function MandateRequest(req: DonationRequest, host: DonationHost, draft: Draft): MandateData {
    MandateData(
      draft.(amount := Some(req.amount as real / 100.0)),
      if req.frequency != 0 then "RCUR" else "OOFF",
      req.iban,
      req.bic,
      GetSetting(host.settings, "sepa_creditor_id", 1),
      host.startDate)
  }

  /** Creates the mandate and loads the contribution it is linked to. */
  function PaySepa(req: DonationRequest, host: DonationHost, draft: Draft): Attempt<Payment> {
    var create := [CreateMandate(MandateRequest(req, host, draft))];
    match host.mandate
    case Raised(e) => Attempt(create, Raised(e))
    case Returned(mandate) =>
      if mandate.entityId == 0 then Attempt(create, Returned(Payment(None, None)))
      else if mandate.entityTable == "civicrm_contribution" then
        var calls := create + [LoadContribution(mandate.entityId)];
        match host.contribution
        case Raised(e) => Attempt(calls, Raised(e))
        case Returned(c) => Attempt(calls, Returned(Payment(Some(c), None)))
      else if mandate.entityTable == "civicrm_contribution_recur" then
        var calls := create + [LoadRecurringContribution(mandate.entityId)];
        match host.recurring
        case Raised(e) => Attempt(calls, Raised(e))
        case Returned(c) => Attempt(calls, Returned(Payment(Some(c), Some(mandate.entityId))))
      else Attempt(create, Raised(Exception(MandateUnlinked, InvalidFormat, NoExtra)))
  }

  /** The IBAN and BIC checks run in their fixed order: IBAN given, IBAN
      valid, BIC given, BIC valid. The first one that fails is reported, with
      the verifier's own message when a verifier refuses. */
  lemma BankAccountCheckOrder(req: DonationRequest, host: DonationHost)
    // the IBAN is verified before the BIC, and each only once it is given
    ensures var r := CheckBankAccount(req, host);
            && r.calls <= [VerifyIban(req.iban), VerifyBic(req.bic)]
            && (VerifyIban(req.iban) in r.calls <==> !EmptyString(req.iban))
            && (VerifyBic(req.bic) in r.calls <==>
                  !EmptyString(req.iban) && EmptyString(host.ibanError) && !EmptyString(req.bic))
    ensures var r := CheckBankAccount(req, host);
            && (r.reply.Returned? <==>
                  !EmptyString(req.iban) && EmptyString(host.ibanError) &&
                  !EmptyString(req.bic) && EmptyString(host.bicError))
            && (r.reply.Raised? ==>
                  r.reply.error.code == InvalidFormat && r.reply.error.extra == NoExtra &&
                  r.reply.error.message ==
                    (if EmptyString(req.iban) then IbanMissing
                     else if !EmptyString(host.ibanError) then host.ibanError
                     else if EmptyString(req.bic) then BicMissing
                     else host.bicError))
  {
  }

  /** The mandate's entity decides what is loaded and whether its id is kept
      as the recurring contribution id. */
  lemma MandateLinkage(req: DonationRequest, host: DonationHost, draft: Draft)
    ensures var r := PaySepa(req, host, draft);
            var create := CreateMandate(MandateRequest(req, host, draft));
            && |r.calls| > 0 && r.calls[0] == create
            // the mandate fails, or names no entity: nothing is loaded
            && (host.mandate.Raised? ==> r == Attempt([create], Raised(host.mandate.error)))
            && (host.mandate.Returned? && host.mandate.value.entityId == 0 ==>
                  r == Attempt([create], Returned(Payment(None, None))))
    ensures var r := PaySepa(req, host, draft);
            var create := CreateMandate(MandateRequest(req, host, draft));
            host.mandate.Returned? && host.mandate.value.entityId != 0 ==>
              var id := host.mandate.value.entityId;
              var table := host.mandate.value.entityTable;
              // a one-off mandate's contribution is loaded as a contribution
              && (table == "civicrm_contribution" ==>
                    && r.calls == [create, LoadContribution(id)]
                    && (r.reply.Returned? <==> host.contribution.Returned?)
                    && (r.reply.Returned? ==> r.reply.value == Payment(Some(host.contribution.value), None)))
              // a recurring mandate's entity id is kept as the recurring contribution id
              && (table == "civicrm_contribution_recur" ==>
                    && r.calls == [create, LoadRecurringContribution(id)]
                    && (r.reply.Returned? <==> host.recurring.Returned?)
                    && (r.reply.Returned? ==> r.reply.value == Payment(Some(host.recurring.value), Some(id))))
              // any other entity cannot be loaded
              && (table != "civicrm_contribution" && table != "civicrm_contribution_recur" ==>
                    r == Attempt([create], Raised(Exception(MandateUnlinked, InvalidFormat, NoExtra))))
  {
  }

  /** The annual amount reaches the membership only when it is set and
      non-zero: for a recurring donation of a non-zero amount. */
  lemma MembershipAnnual(req: DonationRequest, host: DonationHost, contactId: int)
    ensures MembershipRequest(req, host, contactId, AnnualAmount(req)).annual ==
              if req.frequency != 0 && req.amount != 0
              then Some(req.amount as real * req.frequency as real / 100.0) else None
  {
  }

  function PaypalContribution(host: DonationHost, draft: Draft): ContributionData {
    ContributionData(draft, GetSetting(host.settings, "paypal_instrument_id", 12), "Completed")
  }

  /** The payment branch selected by the payment instrument. */
  function Pay(req: DonationRequest, host: DonationHost, draft: Draft): Attempt<Payment> {
    if req.paymentInstrument == "sepa" then
      var check := CheckBankAccount(req, host);
      match check.reply
      case Raised(e) => Attempt(check.calls, Raised(e))
      case Returned(_) =>
        var sepa := PaySepa(req, host, draft);
        Attempt(check.calls + sepa.calls, sepa.reply)
    else if req.paymentInstrument == "paypal" then
      var calls := [CreateContribution(PaypalContribution(host, draft))];
      match host.created
      case Raised(e) => Attempt(calls, Raised(e))
      case Returned(c) => Attempt(calls, Returned(Payment(Some(c), None)))
    else Attempt([], Raised(Exception(BadInstrument, InvalidFormat, NoExtra)))
  }

  /** The membership request, before custom-field aliases are resolved. */
  function MembershipRequest(req: DonationRequest, host: DonationHost, contactId: int,
                             annual: Option<real>): MembershipData {
    MembershipData(
      req.membershipType,
      req.campaignId,
      contactId,
      host.source,
      if EmptyString(req.membershipSubtype) then None else Some(req.membershipSubtype),
      host.startDate,
      YearLaterDayBefore(host.startDate),
      Today,
      if annual.Some? && annual.value != 0.0 then annual else None)
  }

  /** Creates and reloads the membership, then links it to the recurring
      contribution when there is one. */
  function ProvideMembership(req: DonationRequest, host: DonationHost, contactId: int,
                             annual: Option<real>, recurringId: Option<int>): Attempt<()> {
    if EmptyString(req.membershipType) then Attempt([], Returned(()))
    else
      var create := [CreateMembership(MembershipRequest(req, host, contactId, annual))];
      match host.membershipCreated
      case Raised(e) => Attempt(create, Raised(e))
      case Returned(created) =>
        var load := create + [LoadMembership(created.id)];
        match host.membershipLoaded
        case Raised(e) => Attempt(load, Raised(e))
        case Returned(membership) =>
          if recurringId.Some? && recurringId.value != 0 then
            var update := load + [UpdateMembership(
              MembershipUpdate(membership.id, membership.contactId, recurringId.value))];
            match host.membershipUpdated
            case Raised(e) => Attempt(update, Raised(e))
            case Returned(_) => Attempt(update, Returned(()))
          else Attempt(load, Returned(()))
  }

  function ProvideNewsletter(req: DonationRequest, host: DonationHost, contactId: int): Attempt<Option<Record>> {
    if EmptyInt(req.newsletter) then Attempt([], Returned(None))
    else Attempt([SubmitNewsletter(contactId, 1)], NestedSubscription(contactId, host.subscription))
  }

  /** The nested newsletter submission for the donor, with the flag set, as
      the API call answers it: its result, or its error raised again. */
  function NestedSubscription(contactId: int, sub: NewsletterSubscription.SubscriptionHost): (r: Reply<Option<Record>>)
    ensures var answer := NewsletterSubscription.Submit(SubscriptionRequest("", 1, contactId), sub).response;
            && (r.Raised? <==> answer.Refused?)
            && (r.Raised? ==> r.error == Exception(answer.message, answer.code, answer.extra))
            && (r.Returned? ==> r.value == Some(answer.values))
  {
    match NewsletterSubscription.Submit(SubscriptionRequest("", 1, contactId), sub).response
    case Refused(message, code, extra) => Raised(Exception(message, code, extra))
    case Subscribed(values) => Returned(Some(values))
  }

  /** The calls of an earlier part of the try block followed by the rest. */
  function After(calls: seq<Call>, rest: Processed): Processed {
    rest.(calls := calls + rest.calls)
  }

  /** The try block. */
  function Process(req: DonationRequest, host: DonationHost): Processed {
    var recurrence := CheckRecurrence(req);
    if recurrence.Some? then Processed([], Raised(recurrence.value), 0)
    else
      var gender := ResolveGender(req, host);
      match gender.reply
      case Raised(e) => Processed(gender.calls, Raised(e), 0)
      case Returned(genderField) =>
        var contact := ResolveContact(DonorData(req, genderField), host.contact);
        match contact.reply
        case Raised(e) => Processed(gender.calls + contact.calls, Raised(e), 0)
        case Returned(contactId) => After(gender.calls + contact.calls, ProcessDonor(req, host, contactId))
  }

  /** The try block once the donor is known: payment, then the follow-ups. */
  function ProcessDonor(req: DonationRequest, host: DonationHost, contactId: int): Processed {
    var pay := Pay(req, host, ContributionDraft(req, host, contactId));
    match pay.reply
    case Raised(e) => Processed(pay.calls, Raised(e), contactId)
    case Returned(payment) => After(pay.calls, FollowUps(req, host, contactId, payment))
  }

  /** The membership and newsletter steps after a successful payment. */
  function FollowUps(req: DonationRequest, host: DonationHost, contactId: int, payment: Payment): Processed {
    var membership := ProvideMembership(req, host, contactId, AnnualAmount(req), payment.recurringId);
    match membership.reply
    case Raised(e) => Processed(membership.calls, Raised(e), contactId)
    case Returned(_) =>
      var newsletter := ProvideNewsletter(req, host, contactId);
      var calls := membership.calls + newsletter.calls;
      match newsletter.reply
      case Raised(e) => Processed(calls, Raised(e), contactId)
      case Returned(subscription) =>
        Processed(calls, Returned(Donated(payment.contribution, subscription)), contactId)
  }

  function FailedActivity(req: DonationRequest, host: DonationHost, contactId: int): ActivityData {
    ActivityData(
      host.assignee,
      FailedActivityType,
      FailedActivitySubject,
      Timestamp(host.requestTime),
      host.loggedInContact,
      "Scheduled",
      contactId,
      req.campaignId,
      req)
  }

  /** The catch block: roll back, record the follow-up activity on a best
      effort basis and return the original exception. */
  function Compensate(req: DonationRequest, host: DonationHost, contactId: int, e: Exception): Run {
    var rollback := if host.hasFrame then [ForceRollback] else [];
    var notice :=
      match host.activity
      case Returned(activity) =>
        Notice(ActivityCreated(activity), if host.assignee.None? then [NoAssigneeNotice] else [])
      case Raised(failure) =>
        Notice(ActivityFailed(failure.message, failure.extra), [ActivityFailedNotice]);
    Run(rollback + [CreateActivity(FailedActivity(req, host, contactId))],
        Error(e.message, e.code, e.extra, notice))
  }

  function Submit(req: DonationRequest, host: DonationHost): Run {
    var params := Params(req, host);
    var processed := Process(params, host);
    match processed.reply
    case Returned(donated) =>
      Run([ExtractCampaign] + processed.calls, Success(donated.contribution, donated.newsletter))
    case Raised(e) =>
      var compensation := Compensate(params, host, processed.contactId, e);
      Run([ExtractCampaign] + processed.calls + compensation.calls, compensation.response)
  }
}

=== FILE: donation_properties.dfy ===
/** What a donation submission promises, stated over its response and its
    trace of host calls: the order of the validations, the single payment
    branch, the data each host call carries, the conditional follow-ups and
    the failure path. */
module DonationProperties {
  import opened Php
  import opened Requests
  import opened Host
  import opened Donation
  import opened DonationTrace
  import NewsletterSubscription

  /** A recurring donation by any instrument but SEPA is refused before the
      donor is looked up: the trace holds campaign extraction and the catch
      block only. */
  lemma RecurringNeedsSepaFirst(req: DonationRequest, host: DonationHost)
    requires req.frequency != 0 && req.paymentInstrument != "sepa"
    ensures var r := Submit(req, host);
            && r.response.Error?
            && r.response.message == RecurringNeedsSepa
            && r.response.code == InvalidFormat && r.response.extra == NoExtra
            && Count(r.calls, IsContactLookup) == 0
            && Count(r.calls, CreatesPayment) == 0
            && r.calls == [ExtractCampaign] +
                 Compensate(Params(req, host), host, 0, Exception(RecurringNeedsSepa, InvalidFormat, NoExtra)).calls
  {
    var p := Params(req, host);
    var s := Decompose(req, host);
    KindSteps();
    CountBySegment(s, IsContactLookup, DonorStep);
    CountBySegment(s, CreatesPayment, PaymentStep);
    ProcessError(p, host);
    SubmitResponse(req, host);
    SubmitCalls(req, host);
  }

  /** A gender code other than 'm' or 'f' is refused with the bare code 0,
      before the donor is looked up. */
  lemma UnknownGenderRefused(req: DonationRequest, host: DonationHost)
    requires req.frequency == 0 || req.paymentInstrument == "sepa"
    requires !EmptyString(req.gender) && req.gender != "m" && req.gender != "f"
    requires host.genderOptions.Returned?
    ensures var r := Submit(req, host);
            && r.response.Error?
            && r.response.message == UnknownGender
            && r.response.code == CodeZero && r.response.extra == NoExtra
            && Count(r.calls, IsContactLookup) == 0
            && Count(r.calls, CreatesPayment) == 0
  {
    var p := Params(req, host);
    var s := Decompose(req, host);
    KindSteps();
    CountBySegment(s, IsContactLookup, DonorStep);
    CountBySegment(s, CreatesPayment, PaymentStep);
    ProcessError(p, host);
    SubmitResponse(req, host);
  }

  /** A contact lookup that yields no id, or fails, ends the submission
      before any payment: once with its own error, once with invalid_format. */
  lemma UnresolvedContactRefused(req: DonationRequest, host: DonationHost)
    requires req.frequency == 0 || req.paymentInstrument == "sepa"
    requires EmptyString(req.gender) || ((req.gender == "m" || req.gender == "f") && host.genderOptions.Returned?)
    requires host.contact.Raised? || host.contact == Returned(0)
    ensures var r := Submit(req, host);
            && r.response.Error?
            && (host.contact == Returned(0) ==>
                  r.response.message == ContactUnresolved &&
                  r.response.code == InvalidFormat && r.response.extra == NoExtra)
            && (host.contact.Raised? ==>
                  r.response.message == host.contact.error.message &&
                  r.response.code == host.contact.error.code && r.response.extra == host.contact.error.extra)
            && Count(r.calls, IsContactLookup) == 1
            && Count(r.calls, CreatesPayment) == 0
  {
    var p := Params(req, host);
    var s := Decompose(req, host);
    KindSteps();
    var gender := ResolveGender(p, host);
    var lookup := GetOrCreateContact(DonorData(p, gender.reply.value));
    CountBySegment(s, IsContactLookup, DonorStep);
    CountBySegment(s, CreatesPayment, PaymentStep);
    CountConcat(gender.calls, [lookup], IsContactLookup);
    CountOne(lookup, IsContactLookup);
    ProcessError(p, host);
    SubmitResponse(req, host);
  }

  /** The donor is looked up at most once. */
  lemma DonorLookedUpOnce(req: DonationRequest, host: DonationHost)
    ensures Count(Submit(req, host).calls, IsContactLookup) <= 1
  {
    var p := Params(req, host);
    var s := Decompose(req, host);
    KindSteps();
    var gender := ResolveGender(p, host);
    CountBySegment(s, IsContactLookup, DonorStep);
    if CheckRecurrence(p).None? && gender.reply.Returned? {
      var lookup := GetOrCreateContact(DonorData(p, gender.reply.value));
      CountConcat(gender.calls, [lookup], IsContactLookup);
      CountOne(lookup, IsContactLookup);
    }
  }

  /** The donor lookup carries the request's name, e-mail and address and
      the gender the gender step resolved: none for an empty code. */
  lemma DonorLookupData(req: DonationRequest, host: DonationHost, i: int)
    requires 0 <= i < |Submit(req, host).calls| && Submit(req, host).calls[i].GetOrCreateContact?
    ensures LooksUpDonor(req, host, Submit(req, host).calls[i].contact)
  {
    var c := Submit(req, host).calls[i];
    StepOfKind(c);
    DonorCallOrigin(req, host, c);
    DonorCallData(req, host, c);
  }

  /** A mandate the submission creates carries the amount in euros, the
      request's bank account and type RCUR exactly for a recurring donation,
      whose draft then counts monthly instalments and has no total. The
      amount divided a second time on the way is overwritten before the
      mandate call sees it. */
  lemma MandateCallCarriesEuros(req: DonationRequest, host: DonationHost, i: int)
    requires 0 <= i < |Submit(req, host).calls| && Submit(req, host).calls[i].CreateMandate?
    ensures MandateCarriesEuros(req, host, Submit(req, host).calls[i].mandate)
  {
    var c := Submit(req, host).calls[i];
    StepOfKind(c);
    PaymentCallOrigin(req, host, c);
    MandateCallData(req, host, c);
  }

  /** A contribution the submission creates directly is a completed one-off
      PayPal contribution of the amount in euros, with the configured
      instrument. */
  lemma PaypalCallCompleted(req: DonationRequest, host: DonationHost, i: int)
    requires 0 <= i < |Submit(req, host).calls| && Submit(req, host).calls[i].CreateContribution?
    ensures PaypalCompleted(req, host, Submit(req, host).calls[i].contribution)
  {
    var c := Submit(req, host).calls[i];
    StepOfKind(c);
    PaymentCallOrigin(req, host, c);
    ContributionCallData(req, host, c);
  }

  /** On the SEPA branch a failing IBAN or BIC check, taken in its fixed
      order, ends the submission with that check's message before any
      mandate is created. */
  lemma BankAccountChecksFirst(req: DonationRequest, host: DonationHost)
    requires DonorResolved(Params(req, host), host)
    requires req.paymentInstrument == "sepa"
    requires CheckBankAccount(req, host).reply.Raised?
    ensures var r := Submit(req, host);
            && r.response.Error?
            && r.response.code == InvalidFormat
            && r.response.message ==
                 (if EmptyString(req.iban) then IbanMissing
                  else if !EmptyString(host.ibanError) then host.ibanError
                  else if EmptyString(req.bic) then BicMissing
                  else host.bicError)
            && Count(r.calls, CreatesPayment) == 0
  {
    var p := Params(req, host);
    var s := Decompose(req, host);
    KindSteps();
    assert CheckBankAccount(p, host) == CheckBankAccount(req, host);
    BankAccountCheckOrder(req, host);
    CountBySegment(s, CreatesPayment, PaymentStep);
    CountZero(CheckBankAccount(p, host).calls, CreatesPayment);
    ProcessError(p, host);
    SubmitResponse(req, host);
  }

  /** Exactly one payment branch runs: at most one call creates the
      contribution, a successful submission has exactly one, made by SEPA or
      PayPal, and any other instrument is refused without one. */
  lemma OnePaymentBranch(req: DonationRequest, host: DonationHost)
    ensures var r := Submit(req, host);
            && Count(r.calls, CreatesPayment) <= 1
            && (r.response.Success? ==>
                  Count(r.calls, CreatesPayment) == 1 &&
                  (req.paymentInstrument == "sepa" || req.paymentInstrument == "paypal"))
            && (DonorResolved(Params(req, host), host) &&
                req.paymentInstrument != "sepa" && req.paymentInstrument != "paypal" ==>
                  && r.response.Error?
                  && r.response.message == BadInstrument && r.response.code == InvalidFormat
                  && Count(r.calls, CreatesPayment) == 0)
  {
    var p := Params(req, host);
    var s := Decompose(req, host);
    KindSteps();
    CountBySegment(s, CreatesPayment, PaymentStep);
    if DonorResolved(p, host) {
      PaymentStepCalls(p, host, ContributionDraft(p, host, host.contact.value));
    }
    ProcessError(p, host);
    SubmitResponse(req, host);
  }

  /** A mandate whose entity is neither a contribution nor a recurring
      contribution is refused with invalid_format. */
  lemma MandateUnlinkedRefused(req: DonationRequest, host: DonationHost)
    requires DonorResolved(Params(req, host), host) && req.paymentInstrument == "sepa"
    requires CheckBankAccount(req, host).reply.Returned?
    requires host.mandate.Returned? && host.mandate.value.entityId != 0
    requires host.mandate.value.entityTable != "civicrm_contribution"
    requires host.mandate.value.entityTable != "civicrm_contribution_recur"
    ensures var r := Submit(req, host);
            && r.response.Error?
            && r.response.message == MandateUnlinked && r.response.code == InvalidFormat
  {
    var p := Params(req, host);
    assert CheckBankAccount(p, host) == CheckBankAccount(req, host);
    ProcessError(p, host);
    SubmitResponse(req, host);
  }

  /** A membership update sets the reloaded membership's paid-through
      contract to the mandate's entity, and happens only when the mandate
      links a recurring contribution. */
  lemma PaidThroughIsRecurring(req: DonationRequest, host: DonationHost, i: int)
    requires 0 <= i < |Submit(req, host).calls| && Submit(req, host).calls[i].UpdateMembership?
    ensures PaidThroughRecurring(req, host, Submit(req, host).calls[i].update)
  {
    var c := Submit(req, host).calls[i];
    StepOfKind(c);
    MembershipCallOrigin(req, host, c);
    UpdateCallData(req, host, c);
  }

  /** A membership reload in a submission's trace comes right after the
      creation of the donor's membership, and reloads it by the id the
      creation answered. */
  lemma ReloadFollowsCreate(req: DonationRequest, host: DonationHost, i: int)
    requires 0 <= i < |Submit(req, host).calls| && Submit(req, host).calls[i].LoadMembership?
    ensures var calls := Submit(req, host).calls;
            var p := Params(req, host);
            && i >= 1 && host.contact.Returned? && host.membershipCreated.Returned?
            && calls[i - 1] == CreateMembership(MembershipRequest(p, host, host.contact.value, AnnualAmount(p)))
            && calls[i] == LoadMembership(host.membershipCreated.value.id)
  {
    var s := Decompose(req, host);
    MembershipPhases(Params(req, host), host, i);
  }

  /** A membership update in a submission's trace comes right after the
      creation of the donor's membership and its reload by the created id:
      the membership is linked to the recurring contribution only once it
      exists and was reloaded. */
  lemma UpdateFollowsReload(req: DonationRequest, host: DonationHost, i: int)
    requires 0 <= i < |Submit(req, host).calls| && Submit(req, host).calls[i].UpdateMembership?
    ensures var calls := Submit(req, host).calls;
            var p := Params(req, host);
            && i >= 2 && host.contact.Returned? && host.membershipCreated.Returned?
            && calls[i - 2] == CreateMembership(MembershipRequest(p, host, host.contact.value, AnnualAmount(p)))
            && calls[i - 1] == LoadMembership(host.membershipCreated.value.id)
  {
    var s := Decompose(req, host);
    MembershipPhases(Params(req, host), host, i);
  }

  /** After a successful submission the membership was created and reloaded
      exactly when a type was given, and linked to the recurring
      contribution exactly when the mandate links one; the three calls are
      consecutive, the reload uses the created id and the link the reloaded
      membership. */
  lemma MembershipOnSuccess(req: DonationRequest, host: DonationHost)
    requires Submit(req, host).response.Success?
    ensures var r := Submit(req, host);
            var p := Params(req, host);
            var wanted := !EmptyString(req.membershipType);
            && Count(r.calls, IsMembershipCreate) == (if wanted then 1 else 0)
            && Count(r.calls, IsMembershipLoad) == (if wanted then 1 else 0)
            && Count(r.calls, IsMembershipUpdate) == (if wanted && RecurringLinked(p, host) then 1 else 0)
            && (wanted ==>
                  && host.contact.Returned? && host.membershipCreated.Returned? && host.membershipLoaded.Returned?
                  && exists k :: 0 <= k && k + 1 < |r.calls|
                       && r.calls[k] == CreateMembership(MembershipRequest(p, host, host.contact.value, AnnualAmount(p)))
                       && r.calls[k + 1] == LoadMembership(host.membershipCreated.value.id)
                       && (RecurringLinked(p, host) ==>
                             k + 2 < |r.calls| &&
                             r.calls[k + 2] == UpdateMembership(MembershipUpdate(host.membershipLoaded.value.id,
                                                                                 host.membershipLoaded.value.contactId,
                                                                                 host.mandate.value.entityId))))
  {
    MembershipCountsOnSuccess(req, host);
    MembershipOrderOnSuccess(req, host);
  }

  /** The counting half of `MembershipOnSuccess`. */
  lemma MembershipCountsOnSuccess(req: DonationRequest, host: DonationHost)
    requires Submit(req, host).response.Success?
    ensures var r := Submit(req, host);
            var wanted := !EmptyString(req.membershipType);
            && Count(r.calls, IsMembershipCreate) == (if wanted then 1 else 0)
            && Count(r.calls, IsMembershipLoad) == (if wanted then 1 else 0)
            && Count(r.calls, IsMembershipUpdate) == (if wanted && RecurringLinked(Params(req, host), host) then 1 else 0)
  {
    var p := Params(req, host);
    var s := Decompose(req, host);
    KindSteps();
    SubmitResponse(req, host);
    MembershipCounts(p, host);
    CountBySegment(s, IsMembershipCreate, MembershipStep);
    CountBySegment(s, IsMembershipLoad, MembershipStep);
    CountBySegment(s, IsMembershipUpdate, MembershipStep);
  }

  /** The ordering half of `MembershipOnSuccess`. */
  lemma MembershipOrderOnSuccess(req: DonationRequest, host: DonationHost)
    requires Submit(req, host).response.Success?
    ensures var r := Submit(req, host);
            var p := Params(req, host);
            !EmptyString(req.membershipType) ==>
              && host.contact.Returned? && host.membershipCreated.Returned? && host.membershipLoaded.Returned?
              && exists k :: 0 <= k && k + 1 < |r.calls|
                   && r.calls[k] == CreateMembership(MembershipRequest(p, host, host.contact.value, AnnualAmount(p)))
                   && r.calls[k + 1] == LoadMembership(host.membershipCreated.value.id)
                   && (RecurringLinked(p, host) ==>
                         k + 2 < |r.calls| &&
                         r.calls[k + 2] == UpdateMembership(MembershipUpdate(host.membershipLoaded.value.id,
                                                                             host.membershipLoaded.value.contactId,
                                                                             host.mandate.value.entityId)))
  {
    var p := Params(req, host);
    var s := Decompose(req, host);
    SubmitResponse(req, host);
    if !EmptyString(req.membershipType) {
      MembershipCounts(p, host);
      MembershipPlaced(s);
      var start := 1 + |s.donor| + |s.payment|;
      assert Submit(req, host).calls[start] == s.membership[0];
      assert Submit(req, host).calls[start + 1] == s.membership[1];
      if RecurringLinked(p, host) {
        assert Submit(req, host).calls[start + 2] == s.membership[2];
      }
    }
  }


  /** After a successful submission the newsletter sub-call was made exactly
      when asked for, and the nested operation's group result alone is
      reported beside the contribution the payment step produced. */
  lemma NewsletterOnSuccess(req: DonationRequest, host: DonationHost)
    requires Submit(req, host).response.Success?
    ensures var r := Submit(req, host);
            && Count(r.calls, IsNewsletterSubmit) == (if EmptyInt(req.newsletter) then 0 else 1)
            && r.response.newsletter == (if EmptyInt(req.newsletter) then None else Some(host.subscription.groupContact.value))
            && r.response.values == PaymentAttempt(Params(req, host), host).reply.value.contribution
  {
    var p := Params(req, host);
    var s := Decompose(req, host);
    KindSteps();
    SubmitResponse(req, host);
    CountBySegment(s, IsNewsletterSubmit, NewsletterStep);
    if !EmptyInt(req.newsletter) {
      CountOne(SubmitNewsletter(host.contact.value, 1), IsNewsletterSubmit);
    }
  }

  /** A successful payment step answers with the contribution the branch
      obtained: on the SEPA branch the contribution or recurring contribution
      the mandate links, loaded by the mandate's entity id, or nothing when
      the mandate names no entity; on the PayPal branch the completed
      contribution it created. */
  lemma PaymentSuccessValues(req: DonationRequest, host: DonationHost)
    requires Submit(req, host).response.Success?
    ensures var r := Submit(req, host);
            && (req.paymentInstrument == "sepa" || req.paymentInstrument == "paypal")
            && (req.paymentInstrument == "paypal" ==>
                  host.created.Returned? && r.response.values == Some(host.created.value))
    ensures var r := Submit(req, host);
            req.paymentInstrument == "sepa" ==>
              && host.mandate.Returned?
              && var id := host.mandate.value.entityId;
              && var table := host.mandate.value.entityTable;
              && (id == 0 ==> r.response.values == None)
              && (id != 0 ==> table == "civicrm_contribution" || table == "civicrm_contribution_recur")
              && (id != 0 && table == "civicrm_contribution" ==>
                    && host.contribution.Returned?
                    && r.response.values == Some(host.contribution.value)
                    && LoadContribution(id) in r.calls)
              && (id != 0 && table == "civicrm_contribution_recur" ==>
                    && host.recurring.Returned?
                    && r.response.values == Some(host.recurring.value)
                    && LoadRecurringContribution(id) in r.calls)
  {
    var p := Params(req, host);
    var s := Decompose(req, host);
    SubmitResponse(req, host);
    PaymentValues(p, host);
  }

  /** A mandate the host refuses, on a SEPA donation whose donor is resolved
      and whose bank account checks pass, fails the submission with the
      host's own message, code and extras. */
  lemma MandateErrorPassesThrough(req: DonationRequest, host: DonationHost)
    requires DonorResolved(Params(req, host), host)
    requires req.paymentInstrument == "sepa" && CheckBankAccount(Params(req, host), host).reply.Returned?
    requires host.mandate.Raised?
    ensures var r := Submit(req, host);
            && r.response.Error?
            && r.response.message == host.mandate.error.message
            && r.response.code == host.mandate.error.code
            && r.response.extra == host.mandate.error.extra
  {
    var p := Params(req, host);
    MandateLinkage(p, host, ContributionDraft(p, host, host.contact.value));
    ProcessError(p, host);
    SubmitResponse(req, host);
  }

  /** A nested newsletter submission that refuses, after the payment and the
      membership succeeded, fails the donation with the nested refusal's
      message, code and extras. */
  lemma NewsletterRefusalPassesThrough(req: DonationRequest, host: DonationHost)
    requires MembershipDone(Params(req, host), host) && !EmptyInt(req.newsletter)
    requires NewsletterSubscription.Submit(SubscriptionRequest("", 1, host.contact.value), host.subscription)
               .response.Refused?
    ensures var r := Submit(req, host);
            var refusal := NewsletterSubscription.Submit(SubscriptionRequest("", 1, host.contact.value),
                                                         host.subscription).response;
            && r.response.Error?
            && r.response.message == refusal.message
            && r.response.code == refusal.code
            && r.response.extra == refusal.extra
  {
    var p := Params(req, host);
    ProcessError(p, host);
    SubmitResponse(req, host);
  }

  /** A membership the submission creates belongs to the donor, has the
      request's type, the campaign and the configured source, the subtype only
      when one is given, a year's term from the start date the host answers,
      and the annual amount only for a recurring donation of a non-zero
      amount. */
  lemma MembershipCallCarriesRequest(req: DonationRequest, host: DonationHost, i: int)
    requires 0 <= i < |Submit(req, host).calls| && Submit(req, host).calls[i].CreateMembership?
    ensures MembershipCarriesRequest(req, host, Submit(req, host).calls[i].membership)
  {
    var c := Submit(req, host).calls[i];
    StepOfKind(c);
    MembershipCallOrigin(req, host, c);
    MembershipCallData(req, host, c);
  }

  /** A newsletter sub-call subscribes the resolved donor, and is made only
      when the request asks for the newsletter. */
  lemma NewsletterCallSubscribesDonor(req: DonationRequest, host: DonationHost, i: int)
    requires 0 <= i < |Submit(req, host).calls| && Submit(req, host).calls[i].SubmitNewsletter?
    ensures SubscribesDonor(req, host, Submit(req, host).calls[i])
  {
    var c := Submit(req, host).calls[i];
    StepOfKind(c);
    NewsletterCallOrigin(req, host, c);
    NewsletterCallData(req, host, c);
  }

  /** The newsletter sub-call, run as the newsletter operation with the
      donor's id and the flag set, skips the e-mail lookup and adds the donor
      to the configured newsletter group, whatever e-mail the donation
      carried. */
  lemma NewsletterSubCallAddsDonor(req: DonationRequest, host: DonationHost, i: int)
    requires 0 <= i < |Submit(req, host).calls| && Submit(req, host).calls[i].SubmitNewsletter?
    ensures var c := Submit(req, host).calls[i];
            var sub := host.subscription;
            var r := NewsletterSubscription.Submit(SubscriptionRequest("", c.newsletter, c.subscriber), sub);
            r.calls == [SetGroupStatus(GroupContactData(
                          GetSetting(sub.settings, "newsletter_group", NewsletterSubscription.DefaultNewsletterGroup),
                          host.contact.value, "Added"))]
  {
    NewsletterCallSubscribesDonor(req, host, i);
  }

  /** A successful submission that asked for the newsletter leaves the donor
      Added to the configured newsletter group, whatever the group
      memberships were before the nested operation ran. */
  lemma DonorAddedOnSuccess(req: DonationRequest, host: DonationHost, s: NewsletterSubscription.GroupState)
    requires Submit(req, host).response.Success? && !EmptyInt(req.newsletter)
    ensures var sub := host.subscription;
            var group := GetSetting(sub.settings, "newsletter_group", NewsletterSubscription.DefaultNewsletterGroup);
            var nested := NewsletterSubscription.Submit(SubscriptionRequest("", 1, host.contact.value), sub);
            var after := NewsletterSubscription.Apply(s, nested.calls);
            && host.contact.Returned?
            && (group, host.contact.value) in after && after[(group, host.contact.value)] == "Added"
  {
    var p := Params(req, host);
    SubmitResponse(req, host);
    var nestedReq := SubscriptionRequest("", 1, host.contact.value);
    NewsletterSubscription.SubscribedStatus(nestedReq, host.subscription, s);
  }

  /** A failed submission rolls back once when a transaction frame is open
      and ends with exactly one follow-up activity: scheduled at the time of
      the request, by the acting user, about the donor once one was resolved,
      assigned to the configured contact, in the request's campaign, and
      carrying the request. */
  lemma CompensationOnFailure(req: DonationRequest, host: DonationHost)
    requires Submit(req, host).response.Error?
    ensures var p := Params(req, host);
            var r := Submit(req, host);
            && Count(r.calls, IsActivity) == 1
            && Count(r.calls, IsRollback) == (if host.hasFrame then 1 else 0)
            && r.calls[|r.calls| - 1].CreateActivity?
            && var a := r.calls[|r.calls| - 1].activity;
            && a.subject == FailedActivitySubject && a.activityType == FailedActivityType
            && a.status == "Scheduled" && a.assignee == host.assignee
            && a.date == Timestamp(host.requestTime) && a.sourceContact == host.loggedInContact
            && a.target == (if DonorResolved(p, host) then host.contact.value else 0)
            && a.campaignId == p.campaignId
            && a.details == p
  {
    var p := Params(req, host);
    var s := Decompose(req, host);
    KindSteps();
    var processed := Process(p, host);
    SubmitResponse(req, host);
    CountBySegment(s, IsActivity, CompensationStep);
    CountBySegment(s, IsRollback, CompensationStep);
    CompensationStepCalls(p, host, processed.contactId, processed.reply.error);
    SubmitCalls(req, host);
  }

  /** A failed submission's notices report the activity that was created,
      with a notice when no assignee is configured, or the activity's own
      failure. */
  lemma FailureNotices(req: DonationRequest, host: DonationHost)
    requires Submit(req, host).response.Error?
    ensures var r := Submit(req, host);
            && (host.activity.Returned? ==>
                  r.response.notice ==
                    Notice(ActivityCreated(host.activity.value),
                           if host.assignee.None? then [NoAssigneeNotice] else []))
            && (host.activity.Raised? ==>
                  r.response.notice ==
                    Notice(ActivityFailed(host.activity.error.message, host.activity.error.extra),
                           [ActivityFailedNotice]))
  {
    SubmitCompensates(req, host);
  }

  /** A successful submission neither rolls back nor records an activity. */
  lemma NoCompensationOnSuccess(req: DonationRequest, host: DonationHost)
    requires Submit(req, host).response.Success?
    ensures var r := Submit(req, host);
            Count(r.calls, IsActivity) == 0 && Count(r.calls, IsRollback) == 0
  {
    var p := Params(req, host);
    var s := Decompose(req, host);
    KindSteps();
    SubmitResponse(req, host);
    CountBySegment(s, IsActivity, CompensationStep);
    CountBySegment(s, IsRollback, CompensationStep);
  }

  /** Whatever becomes of the follow-up activity, a failed submission answers
      with the message, code and extras of the exception that ended the try
      block. */
  lemma ErrorNotMaskedByActivity(req: DonationRequest, host: DonationHost,
                                 activity: Reply<Record>, assignee: Option<int>)
    ensures var r := Submit(req, host);
            var r' := Submit(req, host.(activity := activity, assignee := assignee));
            var processed := Process(Params(req, host), host);
            && (r.response.Error? <==> r'.response.Error?)
            && (r'.response.Error? ==>
                  && processed.reply.Raised?
                  && r'.response.message == processed.reply.error.message
                  && r'.response.code == processed.reply.error.code
                  && r'.response.extra == processed.reply.error.extra)
  {
    var other := host.(activity := activity, assignee := assignee);
    var p := Params(req, host);
    assert Params(req, other) == p;
    ProcessIgnoresActivity(p, host, activity, assignee);
    SubmitResponse(req, host);
    SubmitResponse(req, other);
  }

  /** The try block reads neither the activity answer nor the assignee. */
  lemma ProcessIgnoresActivity(p: DonationRequest, host: DonationHost,
                               activity: Reply<Record>, assignee: Option<int>)
    ensures Process(p, host.(activity := activity, assignee := assignee)) == Process(p, host)
  {
    var other := host.(activity := activity, assignee := assignee);
    assert ResolveGender(p, other) == ResolveGender(p, host);
    forall c: int
      ensures ProcessDonor(p, other, c) == ProcessDonor(p, host, c)
    {
      var draft := ContributionDraft(p, host, c);
      assert ContributionDraft(p, other, c) == draft;
      assert Pay(p, other, draft) == Pay(p, host, draft);
      forall payment: Payment
        ensures FollowUps(p, other, c, payment) == FollowUps(p, host, c, payment)
      {
        assert ProvideMembership(p, other, c, AnnualAmount(p), payment.recurringId) ==
               ProvideMembership(p, host, c, AnnualAmount(p), payment.recurringId);
        assert ProvideNewsletter(p, other, c) == ProvideNewsletter(p, host, c);
      }
    }
  }
}

=== FILE: donation_trace.dfy ===
/** The trace of a donation submission cut into the steps that issue it, and
    the counts of calls each step contributes. The stages are stated over the
    parameters the try block sees, `Params(req, host)`. */
module DonationTrace {
  import opened Php
  import opened Requests
  import opened Host
  import opened Donation

  /** The request passes the recurrence check, the gender step and the contact
      lookup. */
  predicate DonorResolved(p: DonationRequest, host: DonationHost) {
    && CheckRecurrence(p).None?
    && ResolveGender(p, host).reply.Returned?
    && host.contact.Returned? && host.contact.value != 0
  }

  /** The payment step, once the donor is resolved. */
  function PaymentAttempt(p: DonationRequest, host: DonationHost): Attempt<Payment>
    requires DonorResolved(p, host)
  {
    Pay(p, host, ContributionDraft(p, host, host.contact.value))
  }

  predicate Paid(p: DonationRequest, host: DonationHost) {
    DonorResolved(p, host) && PaymentAttempt(p, host).reply.Returned?
  }

  /** The membership step, once the payment step succeeded. */
  function MembershipAttempt(p: DonationRequest, host: DonationHost): Attempt<()>
    requires Paid(p, host)
  {
    ProvideMembership(p, host, host.contact.value, AnnualAmount(p),
                      PaymentAttempt(p, host).reply.value.recurringId)
  }

  predicate MembershipDone(p: DonationRequest, host: DonationHost) {
    Paid(p, host) && MembershipAttempt(p, host).reply.Returned?
  }

  /** The newsletter step, run once the membership step succeeded. */
  function NewsletterAttempt(p: DonationRequest, host: DonationHost): Attempt<Option<Record>>
    requires MembershipDone(p, host)
  {
    ProvideNewsletter(p, host, host.contact.value)
  }

  /** The mandate links the contribution as a recurring contribution, so its
      id is captured for the membership. */
  predicate RecurringLinked(p: DonationRequest, host: DonationHost) {
    p.paymentInstrument == "sepa" && host.mandate.Returned? &&
    host.mandate.value.entityId != 0 &&
    host.mandate.value.entityTable == "civicrm_contribution_recur"
  }

  /** A trace cut into the parts each step issued, after campaign extraction. */
  datatype Segments = Segments(
    donor: seq<Call>,
    payment: seq<Call>,
    membership: seq<Call>,
    newsletter: seq<Call>,
    compensation: seq<Call>)

  function Flatten(s: Segments): seq<Call> {
    [ExtractCampaign] + s.donor + s.payment + s.membership + s.newsletter + s.compensation
  }

  function Segment(s: Segments, t: Step): seq<Call> {
    match t
    case CampaignStep => [ExtractCampaign]
    case DonorStep => s.donor
    case PaymentStep => s.payment
    case MembershipStep => s.membership
    case NewsletterStep => s.newsletter
    case CompensationStep => s.compensation
  }

  /** Each part holds only calls of its own step. */
  predicate Sorted(s: Segments) {
    && AllOfStep(s.donor, DonorStep)
    && AllOfStep(s.payment, PaymentStep)
    && AllOfStep(s.membership, MembershipStep)
    && AllOfStep(s.newsletter, NewsletterStep)
    && AllOfStep(s.compensation, CompensationStep)
  }

  /** Calls that only step t issues are counted in t's part alone. */
  lemma CountBySegment(s: Segments, p: Call -> bool, t: Step)
    requires Sorted(s)
    requires OnlyIn(p, t)
    ensures Count(Flatten(s), p) == Count(Segment(s, t), p)
  {
    var head := [ExtractCampaign];
    CountConcat(head, s.donor, p);
    CountConcat(head + s.donor, s.payment, p);
    CountConcat(head + s.donor + s.payment, s.membership, p);
    CountConcat(head + s.donor + s.payment + s.membership, s.newsletter, p);
    CountConcat(head + s.donor + s.payment + s.membership + s.newsletter, s.compensation, p);
    CountOne(ExtractCampaign, p);
    if t != DonorStep { CountOtherStep(s.donor, DonorStep, p, t); }
    if t != PaymentStep { CountOtherStep(s.payment, PaymentStep, p, t); }
    if t != MembershipStep { CountOtherStep(s.membership, MembershipStep, p, t); }
    if t != NewsletterStep { CountOtherStep(s.newsletter, NewsletterStep, p, t); }
    if t != CompensationStep { CountOtherStep(s.compensation, CompensationStep, p, t); }
  }

  /** Every call of the trace sits in the part of its own step. */
  lemma CallInOwnSegment(s: Segments, c: Call)
    requires Sorted(s)
    requires c in Flatten(s)
    ensures c in Segment(s, StepOf(c))
  {
    if c in s.donor {
      var i :| 0 <= i < |s.donor| && s.donor[i] == c;
    } else if c in s.payment {
      var i :| 0 <= i < |s.payment| && s.payment[i] == c;
    } else if c in s.membership {
      var i :| 0 <= i < |s.membership| && s.membership[i] == c;
    } else if c in s.newsletter {
      var i :| 0 <= i < |s.newsletter| && s.newsletter[i] == c;
    } else if c in s.compensation {
      var i :| 0 <= i < |s.compensation| && s.compensation[i] == c;
    }
  }

  /** The calls of the recurrence check, the gender step and the contact lookup. */
  function DonorCalls(p: DonationRequest, host: DonationHost): seq<Call> {
    if CheckRecurrence(p).Some? then []
    else
      var gender := ResolveGender(p, host);
      if gender.reply.Raised? then gender.calls
      else gender.calls + [GetOrCreateContact(DonorData(p, gender.reply.value))]
  }

  /** The calls of the catch block, when the try block raised. */
  function CompensationCalls(p: DonationRequest, host: DonationHost): seq<Call> {
    var processed := Process(p, host);
    if processed.reply.Raised? then Compensate(p, host, processed.contactId, processed.reply.error).calls
    else []
  }

  /** The parts of the trace of a submission whose try block sees p. */
  function Parts(p: DonationRequest, host: DonationHost): Segments {
    Segments(
      DonorCalls(p, host),
      if DonorResolved(p, host) then PaymentAttempt(p, host).calls else [],
      if Paid(p, host) then MembershipAttempt(p, host).calls else [],
      if MembershipDone(p, host) then NewsletterAttempt(p, host).calls else [],
      CompensationCalls(p, host))
  }

  /** The SEPA branch after the checks creates the mandate, and loads the
      contribution it is linked to. */
  lemma SepaCalls(p: DonationRequest, host: DonationHost, draft: Draft)
    ensures var r := PaySepa(p, host, draft);
            AllOfStep(r.calls, PaymentStep) && Count(r.calls, CreatesPayment) == 1
  {
    var r := PaySepa(p, host, draft);
    var create := CreateMandate(MandateRequest(p, host, draft));
    MandateLinkage(p, host, draft);
    CountOne(create, CreatesPayment);
    if |r.calls| == 2 {
      assert r.calls == [create] + [r.calls[1]];
      CountConcat([create], [r.calls[1]], CreatesPayment);
      CountOne(r.calls[1], CreatesPayment);
    }
  }

  /** The payment step issues only payment calls, and at most one of them
      creates the contribution; when the step succeeds, exactly one does. */
  lemma PaymentStepCalls(p: DonationRequest, host: DonationHost, draft: Draft)
    ensures var r := Pay(p, host, draft);
            && AllOfStep(r.calls, PaymentStep)
            && Count(r.calls, CreatesPayment) <= 1
            && (r.reply.Returned? ==> Count(r.calls, CreatesPayment) == 1)
  {
    var r := Pay(p, host, draft);
    if p.paymentInstrument == "sepa" {
      var check := CheckBankAccount(p, host);
      CountZero(check.calls, CreatesPayment);
      if check.reply.Returned? {
        var sepa := PaySepa(p, host, draft);
        SepaCalls(p, host, draft);
        CountConcat(check.calls, sepa.calls, CreatesPayment);
      }
    } else if p.paymentInstrument == "paypal" {
      CountOne(r.calls[0], CreatesPayment);
    }
  }

  /** The membership step creates the membership whenever a type is given,
      reloads it once it was created, and links it to the recurring
      contribution once it was reloaded and there is one to link. */
  lemma MembershipStepCalls(p: DonationRequest, host: DonationHost, contactId: int,
                            annual: Option<real>, recurringId: Option<int>)
    ensures var r := ProvideMembership(p, host, contactId, annual, recurringId);
            var wanted := !EmptyString(p.membershipType);
            var linked := recurringId.Some? && recurringId.value != 0;
            && AllOfStep(r.calls, MembershipStep)
            && Count(r.calls, IsMembershipCreate) == (if wanted then 1 else 0)
            && Count(r.calls, IsMembershipLoad) ==
                 (if wanted && host.membershipCreated.Returned? then 1 else 0)
            && Count(r.calls, IsMembershipUpdate) ==
                 (if wanted && host.membershipCreated.Returned? && host.membershipLoaded.Returned? && linked
                  then 1 else 0)
            && (r.reply.Returned? <==>
                  !wanted ||
                  (host.membershipCreated.Returned? && host.membershipLoaded.Returned? &&
                   (linked ==> host.membershipUpdated.Returned?)))
  {
    var r := ProvideMembership(p, host, contactId, annual, recurringId);
    MembershipStepOrder(p, host, contactId, annual, recurringId);
    CountByPosition(r.calls, IsMembershipCreate, 0);
    CountByPosition(r.calls, IsMembershipLoad, 1);
    CountByPosition(r.calls, IsMembershipUpdate, 2);
  }


  /** The membership step's calls come in two phases: the creation first,
      then the reload by the id the creation answered, then the link to the
      recurring contribution as the last call. */
  lemma MembershipStepOrder(p: DonationRequest, host: DonationHost, contactId: int,
                            annual: Option<real>, recurringId: Option<int>)
    ensures var r := ProvideMembership(p, host, contactId, annual, recurringId);
            && |r.calls| ==
                 (if EmptyString(p.membershipType) then 0
                  else if host.membershipCreated.Raised? then 1
                  else if host.membershipLoaded.Raised? || !(recurringId.Some? && recurringId.value != 0) then 2
                  else 3)
            && (forall k :: 0 <= k < |r.calls| ==>
                  && (r.calls[k].CreateMembership? <==> k == 0)
                  && (r.calls[k].LoadMembership? <==> k == 1)
                  && (r.calls[k].UpdateMembership? <==> k == 2))
            && (|r.calls| > 0 ==> r.calls[0] == CreateMembership(MembershipRequest(p, host, contactId, annual)))
            && (|r.calls| > 1 ==>
                  host.membershipCreated.Returned? &&
                  r.calls[1] == LoadMembership(host.membershipCreated.value.id))
            && (|r.calls| > 2 ==>
                  host.membershipLoaded.Returned? && recurringId.Some? &&
                  r.calls[2] == UpdateMembership(MembershipUpdate(host.membershipLoaded.value.id,
                                                                  host.membershipLoaded.value.contactId,
                                                                  recurringId.value)))
  {
  }

  /** The membership part sits in the whole trace after the campaign
      extraction and the donor and payment parts. */
  lemma MembershipPlaced(s: Segments)
    ensures var start := 1 + |s.donor| + |s.payment|;
            && start + |s.membership| <= |Flatten(s)|
            && forall k :: 0 <= k < |s.membership| ==> Flatten(s)[start + k] == s.membership[k]
  {
    var head := [ExtractCampaign] + s.donor + s.payment;
    assert Flatten(s) == head + s.membership + (s.newsletter + s.compensation);
  }

  /** A call of the membership part sits, in the whole trace, after the
      campaign extraction and the donor and payment parts. */
  lemma MembershipIndex(s: Segments, i: int)
    requires Sorted(s)
    requires 0 <= i < |Flatten(s)| && StepOf(Flatten(s)[i]) == MembershipStep
    ensures var start := 1 + |s.donor| + |s.payment|;
            && start <= i < start + |s.membership|
            && forall k :: 0 <= k < |s.membership| ==> Flatten(s)[start + k] == s.membership[k]
  {
    var head := [ExtractCampaign] + s.donor + s.payment;
    assert Flatten(s) == head + s.membership + (s.newsletter + s.compensation);
  }

  /** In the trace of a try block that sees p, a membership reload comes
      right after the creation of the donor's membership and reloads the
      created id, and a link comes right after both. */
  lemma MembershipPhases(p: DonationRequest, host: DonationHost, i: int)
    requires Sorted(Parts(p, host))
    requires 0 <= i < |Flatten(Parts(p, host))|
    requires Flatten(Parts(p, host))[i].LoadMembership? || Flatten(Parts(p, host))[i].UpdateMembership?
    ensures var calls := Flatten(Parts(p, host));
            var back := if calls[i].LoadMembership? then 1 else 2;
            && i >= back && host.contact.Returned? && host.membershipCreated.Returned?
            && calls[i - back] == CreateMembership(MembershipRequest(p, host, host.contact.value, AnnualAmount(p)))
            && calls[i - back + 1] == LoadMembership(host.membershipCreated.value.id)
  {
    var s := Parts(p, host);
    var calls := Flatten(s);
    StepOfKind(calls[i]);
    MembershipIndex(s, i);
    var start := 1 + |s.donor| + |s.payment|;
    assert Paid(p, host);
    var m := MembershipAttempt(p, host).calls;
    MembershipStepOrder(p, host, host.contact.value, AnnualAmount(p), PaymentAttempt(p, host).reply.value.recurringId);
    assert m[i - start] == calls[i];
  }

  /** The catch block rolls back once when a transaction frame is open and
      creates exactly one activity, as its last call. */
  lemma CompensationStepCalls(p: DonationRequest, host: DonationHost, contactId: int, e: Exception)
    ensures var r := Compensate(p, host, contactId, e);
            && AllOfStep(r.calls, CompensationStep)
            && Count(r.calls, IsActivity) == 1
            && Count(r.calls, IsRollback) == (if host.hasFrame then 1 else 0)
            && |r.calls| > 0 && r.calls[|r.calls| - 1] == CreateActivity(FailedActivity(p, host, contactId))
  {
    var r := Compensate(p, host, contactId, e);
    var activity := CreateActivity(FailedActivity(p, host, contactId));
    CountOne(activity, IsActivity);
    CountOne(activity, IsRollback);
    if host.hasFrame {
      CountConcat([ForceRollback], [activity], IsActivity);
      CountConcat([ForceRollback], [activity], IsRollback);
      CountOne(ForceRollback, IsActivity);
      CountOne(ForceRollback, IsRollback);
    } else {
      assert r.calls == [activity];
    }
  }

  /** The follow-ups run the membership step and, after it, the newsletter step. */
  lemma FollowUpsShape(p: DonationRequest, host: DonationHost, contactId: int, payment: Payment)
    ensures var f := FollowUps(p, host, contactId, payment);
            var m := ProvideMembership(p, host, contactId, AnnualAmount(p), payment.recurringId);
            var n := ProvideNewsletter(p, host, contactId);
            && f.contactId == contactId
            && f.calls == m.calls + (if m.reply.Returned? then n.calls else [])
            && (f.reply.Returned? <==> m.reply.Returned? && n.reply.Returned?)
            && (f.reply.Returned? ==> f.reply.value == Donated(payment.contribution, n.reply.value))
  {
  }

  /** Once the donor is known, the payment step runs, and the follow-ups
      after it when it succeeds. */
  lemma DonorShape(p: DonationRequest, host: DonationHost, contactId: int)
    ensures var d := ProcessDonor(p, host, contactId);
            var pay := Pay(p, host, ContributionDraft(p, host, contactId));
            && d.contactId == contactId
            && (pay.reply.Raised? ==> d.calls == pay.calls && d.reply == Raised(pay.reply.error))
            && (pay.reply.Returned? ==>
                  d == After(pay.calls, FollowUps(p, host, contactId, pay.reply.value)))
  {
  }

  /** The try block resolves the donor and, once it is known, goes on. */
  lemma ProcessShape(p: DonationRequest, host: DonationHost)
    ensures var processed := Process(p, host);
            && (!DonorResolved(p, host) ==>
                  processed.calls == DonorCalls(p, host) && processed.reply.Raised? && processed.contactId == 0)
            && (DonorResolved(p, host) ==>
                  processed == After(DonorCalls(p, host), ProcessDonor(p, host, host.contact.value)))
  {
  }

  /** The try block's calls are the donor, payment, membership and
      newsletter parts, in this order. */
  lemma ProcessCalls(p: DonationRequest, host: DonationHost)
    ensures var s := Parts(p, host);
            Process(p, host).calls == s.donor + s.payment + s.membership + s.newsletter
  {
    var s := Parts(p, host);
    ProcessShape(p, host);
    if DonorResolved(p, host) {
      var c := host.contact.value;
      DonorShape(p, host, c);
      if Paid(p, host) {
        FollowUpsShape(p, host, c, PaymentAttempt(p, host).reply.value);
        assert Process(p, host).calls == s.donor + (s.payment + (s.membership + s.newsletter));
      }
    }
  }

  /** The try block succeeds exactly when every step did, with the payment's
      contribution and the newsletter result; otherwise it raised, knowing
      the contact once the donor was resolved. */
  lemma ProcessReply(p: DonationRequest, host: DonationHost)
    ensures var processed := Process(p, host);
            && processed.contactId == (if DonorResolved(p, host) then host.contact.value else 0)
            && (processed.reply.Returned? <==> MembershipDone(p, host) && NewsletterAttempt(p, host).reply.Returned?)
            && (processed.reply.Returned? ==>
                  processed.reply.value ==
                    Donated(PaymentAttempt(p, host).reply.value.contribution, NewsletterAttempt(p, host).reply.value))
  {
    ProcessShape(p, host);
    if DonorResolved(p, host) {
      var c := host.contact.value;
      DonorShape(p, host, c);
      if Paid(p, host) {
        FollowUpsShape(p, host, c, PaymentAttempt(p, host).reply.value);
      }
    }
  }

  /** The submission's calls: campaign extraction, the try block, then the
      catch block when the try block raised. */
  lemma SubmitCalls(req: DonationRequest, host: DonationHost)
    ensures var p := Params(req, host);
            Submit(req, host).calls == [ExtractCampaign] + Process(p, host).calls + CompensationCalls(p, host)
  {
  }

  /** The parts make up the trace of the submission. */
  lemma PartsFlatten(req: DonationRequest, host: DonationHost)
    ensures Flatten(Parts(Params(req, host), host)) == Submit(req, host).calls
  {
    var p := Params(req, host);
    var s := Parts(p, host);
    ProcessCalls(p, host);
    SubmitCalls(req, host);
    Regroup([ExtractCampaign], s.donor, s.payment, s.membership, s.newsletter, s.compensation);
  }

  lemma Regroup(e: seq<Call>, a: seq<Call>, b: seq<Call>, c: seq<Call>, d: seq<Call>, f: seq<Call>)
    ensures e + (a + b + c + d) + f == e + a + b + c + d + f
  {
  }

  lemma DonorPartSorted(p: DonationRequest, host: DonationHost)
    ensures AllOfStep(DonorCalls(p, host), DonorStep)
  {
  }

  lemma PaymentPartSorted(p: DonationRequest, host: DonationHost)
    ensures AllOfStep(Parts(p, host).payment, PaymentStep)
  {
    if DonorResolved(p, host) {
      PaymentStepCalls(p, host, ContributionDraft(p, host, host.contact.value));
    }
  }

  lemma MembershipPartSorted(p: DonationRequest, host: DonationHost)
    ensures AllOfStep(Parts(p, host).membership, MembershipStep)
  {
    if Paid(p, host) {
      MembershipStepCalls(p, host, host.contact.value, AnnualAmount(p),
                          PaymentAttempt(p, host).reply.value.recurringId);
    }
  }

  lemma NewsletterStepCalls(p: DonationRequest, host: DonationHost, contactId: int)
    ensures AllOfStep(ProvideNewsletter(p, host, contactId).calls, NewsletterStep)
  {
  }

  lemma CompensationPartSorted(p: DonationRequest, host: DonationHost)
    ensures AllOfStep(CompensationCalls(p, host), CompensationStep)
  {
    var processed := Process(p, host);
    if processed.reply.Raised? {
      CompensationStepCalls(p, host, processed.contactId, processed.reply.error);
    }
  }

  /** Each part holds only calls of its own step. */
  lemma PartsSorted(p: DonationRequest, host: DonationHost)
    ensures Sorted(Parts(p, host))
  {
    DonorPartSorted(p, host);
    PaymentPartSorted(p, host);
    MembershipPartSorted(p, host);
    if MembershipDone(p, host) {
      NewsletterStepCalls(p, host, host.contact.value);
    }
    CompensationPartSorted(p, host);
  }

  /** The trace of a submission, cut into its steps. */
  lemma Decompose(req: DonationRequest, host: DonationHost) returns (s: Segments)
    ensures s == Parts(Params(req, host), host)
    ensures Sorted(s) && Flatten(s) == Submit(req, host).calls
  {
    s := Parts(Params(req, host), host);
    PartsFlatten(req, host);
    PartsSorted(Params(req, host), host);
  }

  /** A submission succeeds exactly when every step did, and then answers with
      the payment's contribution and the newsletter result; otherwise it
      answers with the message, code and extras of the exception the try
      block ended with. */
  lemma SubmitResponse(req: DonationRequest, host: DonationHost)
    ensures var p := Params(req, host);
            var processed := Process(p, host);
            var r := Submit(req, host);
            && processed.contactId == (if DonorResolved(p, host) then host.contact.value else 0)
            && (r.response.Success? <==> MembershipDone(p, host) && NewsletterAttempt(p, host).reply.Returned?)
            && (r.response.Success? ==>
                  r.response == Success(PaymentAttempt(p, host).reply.value.contribution,
                                        NewsletterAttempt(p, host).reply.value))
            && (r.response.Error? ==>
                  && processed.reply.Raised?
                  && r.response.message == processed.reply.error.message
                  && r.response.code == processed.reply.error.code
                  && r.response.extra == processed.reply.error.extra)
  {
    ProcessReply(Params(req, host), host);
  }

  /** A failed submission answers with the catch block's response. */
  lemma SubmitCompensates(req: DonationRequest, host: DonationHost)
    requires Submit(req, host).response.Error?
    ensures var p := Params(req, host);
            var processed := Process(p, host);
            && processed.reply.Raised?
            && Submit(req, host).response == Compensate(p, host, processed.contactId, processed.reply.error).response
  {
  }

  /** The exception the try block ends with is the one its first failing
      step raised. */
  lemma ProcessError(p: DonationRequest, host: DonationHost)
    ensures var processed := Process(p, host);
            var gender := ResolveGender(p, host);
            && (CheckRecurrence(p).Some? ==> processed.reply == Raised(CheckRecurrence(p).value))
            && (CheckRecurrence(p).None? && gender.reply.Raised? ==> processed.reply == Raised(gender.reply.error))
            && (CheckRecurrence(p).None? && gender.reply.Returned? && !DonorResolved(p, host) ==>
                  processed.reply ==
                    Raised(ResolveContact(DonorData(p, gender.reply.value), host.contact).reply.error))
            && (DonorResolved(p, host) && !Paid(p, host) ==>
                  processed.reply == Raised(PaymentAttempt(p, host).reply.error))
            && (Paid(p, host) && !MembershipDone(p, host) ==>
                  processed.reply == Raised(MembershipAttempt(p, host).reply.error))
            && (MembershipDone(p, host) && NewsletterAttempt(p, host).reply.Raised? ==>
                  processed.reply == Raised(NewsletterAttempt(p, host).reply.error))
  {
    ProcessShape(p, host);
    if DonorResolved(p, host) {
      var c := host.contact.value;
      DonorShape(p, host, c);
      if Paid(p, host) {
        FollowUpsShape(p, host, c, PaymentAttempt(p, host).reply.value);
      }
    }
  }

  /** A recurring contribution id is captured exactly when a SEPA mandate
      links a recurring contribution, and it is the mandate's entity id. */
  lemma RecurringCaptured(p: DonationRequest, host: DonationHost)
    requires Paid(p, host)
    ensures var id := PaymentAttempt(p, host).reply.value.recurringId;
            && (id.Some? && id.value != 0 <==> RecurringLinked(p, host))
            && (id.Some? ==> id.value == host.mandate.value.entityId)
  {
  }

  /** What a successful payment step answers, and the load it issues, by
      branch. */
  lemma PaymentValues(p: DonationRequest, host: DonationHost)
    requires Paid(p, host)
    ensures var r := PaymentAttempt(p, host);
            && (p.paymentInstrument == "sepa" || p.paymentInstrument == "paypal")
            && (p.paymentInstrument == "paypal" ==>
                  host.created.Returned? && r.reply.value.contribution == Some(host.created.value))
    ensures var r := PaymentAttempt(p, host);
            p.paymentInstrument == "sepa" ==>
              && host.mandate.Returned?
              && var id := host.mandate.value.entityId;
              && var table := host.mandate.value.entityTable;
              && (id == 0 ==> r.reply.value.contribution == None)
              && (id != 0 ==> table == "civicrm_contribution" || table == "civicrm_contribution_recur")
              && (id != 0 && table == "civicrm_contribution" ==>
                    && host.contribution.Returned?
                    && r.reply.value.contribution == Some(host.contribution.value)
                    && LoadContribution(id) in r.calls)
              && (id != 0 && table == "civicrm_contribution_recur" ==>
                    && host.recurring.Returned?
                    && r.reply.value.contribution == Some(host.recurring.value)
                    && LoadRecurringContribution(id) in r.calls)
  {
    if p.paymentInstrument == "sepa" {
      var draft := ContributionDraft(p, host, host.contact.value);
      MandateLinkage(p, host, draft);
      var check := CheckBankAccount(p, host);
      var sepa := PaySepa(p, host, draft);
      assert PaymentAttempt(p, host).calls == check.calls + sepa.calls;
    }
  }

  /** A contribution-creating call of the payment step is the one its
      branch issues: the mandate on the SEPA branch, the completed
      contribution on the PayPal branch. */
  lemma PaymentCallOf(p: DonationRequest, host: DonationHost, draft: Draft, c: Call)
    requires c in Pay(p, host, draft).calls
    ensures c.CreateMandate? ==>
              p.paymentInstrument == "sepa" && c == CreateMandate(MandateRequest(p, host, draft))
    ensures c.CreateContribution? ==>
              p.paymentInstrument == "paypal" && c == CreateContribution(PaypalContribution(host, draft))
  {
    if p.paymentInstrument == "sepa" {
      var check := CheckBankAccount(p, host);
      BankAccountCheckOrder(p, host);
      MandateLinkage(p, host, draft);
      if c in check.calls {
        var i :| 0 <= i < |check.calls| && check.calls[i] == c;
        assert c == [VerifyIban(p.iban), VerifyBic(p.bic)][i];
      }
    }
  }

  /** A membership call of the membership step creates the membership from
      the request once a type is given, or links the reloaded membership to
      the recurring contribution id. */
  lemma MembershipCallOf(p: DonationRequest, host: DonationHost, contactId: int,
                         annual: Option<real>, recurringId: Option<int>, c: Call)
    requires c in ProvideMembership(p, host, contactId, annual, recurringId).calls
    ensures c.CreateMembership? ==>
              !EmptyString(p.membershipType) &&
              c == CreateMembership(MembershipRequest(p, host, contactId, annual))
    ensures c.UpdateMembership? ==>
              && recurringId.Some? && recurringId.value != 0 && host.membershipLoaded.Returned?
              && c.update == MembershipUpdate(host.membershipLoaded.value.id,
                                              host.membershipLoaded.value.contactId, recurringId.value)
  {
  }

  /** Contribution data belongs to the resolved donor and carries the
      configured financial type and source, the extracted campaign, and the
      request's receive date or else the time of the request. */
  predicate DraftOfDonor(req: DonationRequest, host: DonationHost, d: Draft) {
    && host.contact.Returned? && d.contactId == host.contact.value
    && d.financialType == GetSetting(host.settings, "financial_type_id", 1)
    && d.campaignId == host.campaignId
    && d.source == host.source
    && d.receiveDate == Timestamp(if req.receiveDate != 0 then req.receiveDate else host.requestTime)
  }

  /** A mandate carries the donor's contribution data with the request's
      amount in euros, its bank account, the configured creditor, the next
      valid start date, and type RCUR exactly for a recurring donation, whose
      draft then counts monthly instalments and has no total. */
  predicate MandateCarriesEuros(req: DonationRequest, host: DonationHost, m: MandateData) {
    var euros := req.amount as real / 100.0;
    && req.paymentInstrument == "sepa"
    && DraftOfDonor(req, host, m.draft)
    && m.creditorId == GetSetting(host.settings, "sepa_creditor_id", 1)
    && m.startDate == host.startDate
    && m.draft.amount == Some(euros)
    && m.iban == req.iban && m.bic == req.bic
    && (m.mandateType == "RCUR" <==> req.frequency != 0)
    && (m.mandateType == "OOFF" <==> req.frequency == 0)
    && (req.frequency != 0 ==>
          && m.draft.frequencyUnit == Some("month")
          && m.draft.frequencyInterval == Some(12.0 / req.frequency as real)
          && m.draft.totalAmount == None)
    && (req.frequency == 0 ==>
          && m.draft.totalAmount == Some(euros)
          && m.draft.frequencyUnit == None && m.draft.frequencyInterval == None)
  }

  /** A contribution is the donor's completed one-off PayPal contribution of
      the request's amount in euros, with the configured instrument. */
  predicate PaypalCompleted(req: DonationRequest, host: DonationHost, d: ContributionData) {
    && req.paymentInstrument == "paypal" && req.frequency == 0
    && DraftOfDonor(req, host, d.draft)
    && d.status == "Completed"
    && d.paymentInstrument == GetSetting(host.settings, "paypal_instrument_id", 12)
    && d.draft.totalAmount == Some(req.amount as real / 100.0)
    && d.draft.amount == None && d.draft.frequencyUnit == None
  }

  /** A membership belongs to the donor, has the request's type, the
      campaign and the configured source, the subtype only when one is given,
      a year's term from the start date the host answers, and the annual
      amount only for a recurring donation of a non-zero amount. */
    predicate MembershipCarriesRequest(req: DonationRequest, host: DonationHost, m: MembershipData) {
    && m.membershipType == req.membershipType && !EmptyString(req.membershipType)
    && host.contact.Returned? && m.contactId == host.contact.value
    && m.campaignId == host.campaignId
    && m.source == host.source
    && (m.subtype.Some? <==> !EmptyString(req.membershipSubtype))
    && (m.subtype.Some? ==> m.subtype.value == req.membershipSubtype)
    && m.startDate == host.startDate
    && m.endDate == YearLaterDayBefore(m.startDate) && m.joinDate == Today
    && m.annual ==
         (if req.frequency != 0 && req.amount != 0
          then Some(req.amount as real * req.frequency as real / 100.0) else None)
  }

  /** A membership update sets the reloaded membership's paid-through
      contract to the entity of a mandate that links a recurring
      contribution. */
  predicate PaidThroughRecurring(req: DonationRequest, host: DonationHost, u: MembershipUpdate) {
    && req.paymentInstrument == "sepa"
    && host.mandate.Returned? && host.mandate.value.entityTable == "civicrm_contribution_recur"
    && host.membershipLoaded.Returned?
    && u == MembershipUpdate(host.membershipLoaded.value.id, host.membershipLoaded.value.contactId,
                             host.mandate.value.entityId)
  }

  /** A newsletter sub-call subscribes the resolved donor, asked for by the
      request. */
  predicate SubscribesDonor(req: DonationRequest, host: DonationHost, c: Call) {
    && !EmptyInt(req.newsletter)
    && host.contact.Returned? && host.contact.value != 0
    && c == SubmitNewsletter(host.contact.value, 1)
  }

  /** A contact lookup carries the request's name, e-mail and address and
      the gender the gender step resolved, none exactly for an empty code. */
  predicate LooksUpDonor(req: DonationRequest, host: DonationHost, d: ContactData) {
    var gender := ResolveGender(Params(req, host), host);
    && gender.reply.Returned?
    && d.fields ==
         map["first_name" := req.firstName, "last_name" := req.lastName, "email" := req.email,
             "street_address" := req.streetAddress, "city" := req.city,
             "postal_code" := req.postalCode, "country" := req.country]
    && d.gender == gender.reply.value
    && (EmptyString(req.gender) <==> d.gender == NoGender)
  }

  lemma DonorCallData(req: DonationRequest, host: DonationHost, c: Call)
    requires c in DonorCalls(Params(req, host), host) && c.GetOrCreateContact?
    ensures LooksUpDonor(req, host, c.contact)
  {
    var p := Params(req, host);
    var gender := ResolveGender(p, host);
    assert c == GetOrCreateContact(DonorData(p, gender.reply.value));
  }

  lemma MandateCallData(req: DonationRequest, host: DonationHost, c: Call)
    requires DonorResolved(Params(req, host), host) && c.CreateMandate?
    requires c in PaymentAttempt(Params(req, host), host).calls
    ensures MandateCarriesEuros(req, host, c.mandate)
  {
    var p := Params(req, host);
    PaymentCallOf(p, host, ContributionDraft(p, host, host.contact.value), c);
  }

  lemma ContributionCallData(req: DonationRequest, host: DonationHost, c: Call)
    requires DonorResolved(Params(req, host), host) && c.CreateContribution?
    requires c in PaymentAttempt(Params(req, host), host).calls
    ensures PaypalCompleted(req, host, c.contribution)
  {
    var p := Params(req, host);
    PaymentCallOf(p, host, ContributionDraft(p, host, host.contact.value), c);
  }

  lemma MembershipCallData(req: DonationRequest, host: DonationHost, c: Call)
    requires Paid(Params(req, host), host) && c.CreateMembership?
    requires c in MembershipAttempt(Params(req, host), host).calls
    ensures MembershipCarriesRequest(req, host, c.membership)
  {
    var p := Params(req, host);
    MembershipCallOf(p, host, host.contact.value, AnnualAmount(p),
                     PaymentAttempt(p, host).reply.value.recurringId, c);
    MembershipRequestCarries(req, host);
  }

  /** The membership data the donation builds for the resolved donor. */
  lemma MembershipRequestCarries(req: DonationRequest, host: DonationHost)
    requires host.contact.Returned? && !EmptyString(req.membershipType)
    ensures var p := Params(req, host);
            MembershipCarriesRequest(req, host, MembershipRequest(p, host, host.contact.value, AnnualAmount(p)))
  {
    var p := Params(req, host);
    MembershipAnnual(p, host, host.contact.value);
  }

  lemma UpdateCallData(req: DonationRequest, host: DonationHost, c: Call)
    requires Paid(Params(req, host), host) && c.UpdateMembership?
    requires c in MembershipAttempt(Params(req, host), host).calls
    ensures PaidThroughRecurring(req, host, c.update)
  {
    var p := Params(req, host);
    RecurringCaptured(p, host);
    MembershipCallOf(p, host, host.contact.value, AnnualAmount(p),
                     PaymentAttempt(p, host).reply.value.recurringId, c);
  }

  lemma NewsletterCallData(req: DonationRequest, host: DonationHost, c: Call)
    requires MembershipDone(Params(req, host), host)
    requires c in NewsletterAttempt(Params(req, host), host).calls
    ensures SubscribesDonor(req, host, c)
  {
  }

  /** A membership step that succeeded, in terms of the request and the
      mandate: without a type it made no call; with one it created the
      membership, reloaded it by the created id, and linked the reloaded
      membership to the mandate's recurring contribution exactly when the
      mandate links one, in this order. */
  lemma MembershipCounts(p: DonationRequest, host: DonationHost)
    requires MembershipDone(p, host)
    ensures var calls := MembershipAttempt(p, host).calls;
            var wanted := !EmptyString(p.membershipType);
            && Count(calls, IsMembershipCreate) == (if wanted then 1 else 0)
            && Count(calls, IsMembershipLoad) == (if wanted then 1 else 0)
            && Count(calls, IsMembershipUpdate) == (if wanted && RecurringLinked(p, host) then 1 else 0)
            && (!wanted ==> calls == [])
            && (wanted ==>
                  && host.membershipCreated.Returned? && host.membershipLoaded.Returned?
                  && calls ==
                       [CreateMembership(MembershipRequest(p, host, host.contact.value, AnnualAmount(p))),
                        LoadMembership(host.membershipCreated.value.id)] +
                       (if RecurringLinked(p, host)
                        then [UpdateMembership(MembershipUpdate(host.membershipLoaded.value.id,
                                                                host.membershipLoaded.value.contactId,
                                                                host.mandate.value.entityId))]
                        else []))
  {
    RecurringCaptured(p, host);
    MembershipStepCalls(p, host, host.contact.value, AnnualAmount(p),
                        PaymentAttempt(p, host).reply.value.recurringId);
  }

  /** A call of the donor step in a submission's trace is one of the calls
      the donor step made. */
  lemma DonorCallOrigin(req: DonationRequest, host: DonationHost, c: Call)
    requires c in Submit(req, host).calls && StepOf(c) == DonorStep
    ensures c in DonorCalls(Params(req, host), host)
  {
    var s := Decompose(req, host);
    CallInOwnSegment(s, c);
  }

  /** A call of the payment step in a submission's trace was made once the
      donor was resolved, by the payment step. */
  lemma PaymentCallOrigin(req: DonationRequest, host: DonationHost, c: Call)
    requires c in Submit(req, host).calls && StepOf(c) == PaymentStep
    ensures DonorResolved(Params(req, host), host)
    ensures c in PaymentAttempt(Params(req, host), host).calls
  {
    var s := Decompose(req, host);
    CallInOwnSegment(s, c);
  }

  /** A call of the membership step in a submission's trace was made once the
      payment succeeded, by the membership step. */
  lemma MembershipCallOrigin(req: DonationRequest, host: DonationHost, c: Call)
    requires c in Submit(req, host).calls && StepOf(c) == MembershipStep
    ensures Paid(Params(req, host), host)
    ensures c in MembershipAttempt(Params(req, host), host).calls
  {
    var s := Decompose(req, host);
    CallInOwnSegment(s, c);
  }

  /** A call of the newsletter step in a submission's trace was made once the
      membership step succeeded, by the newsletter step. */
  lemma NewsletterCallOrigin(req: DonationRequest, host: DonationHost, c: Call)
    requires c in Submit(req, host).calls && StepOf(c) == NewsletterStep
    ensures MembershipDone(Params(req, host), host)
    ensures c in NewsletterAttempt(Params(req, host), host).calls
  {
    var s := Decompose(req, host);
    CallInOwnSegment(s, c);
  }
}

=== FILE: host.dfy ===
/** The calls the two operations issue against the host platform, with the
    data each one sends, and facts about traces of such calls. A trace is the
    ordered sequence of calls one submission issues. */
module Host {
  import opened Php
  import opened Requests

  /** A date the operation formats from the clock or from another date.
      Calendar arithmetic is left to the host and kept symbolic here. */
  datatype DateExpr =
    | Timestamp(epoch: int)             // date('YmdHis', epoch)
    | YearLaterDayBefore(start: string) // start + 1 year - 1 day, as Y-m-d
    | Today                             // date('Y-m-d')

  /** The `gender_id` entry of the contact data: not set, an option value, or
      PHP's `false` when no option carries the wanted name. */
  datatype GenderField = NoGender | GenderId(value: string) | GenderNotFound

  datatype ContactData = ContactData(fields: map<string, string>, gender: GenderField)

  /** The contribution data the donation operation assembles. Optional
      entries are None when the key is not set. */
  datatype Draft = Draft(
    financialType: int,
    campaignId: string,
    contactId: int,
    totalAmount: Option<real>,
    source: string,
    receiveDate: DateExpr,
    frequencyUnit: Option<string>,
    frequencyInterval: Option<real>,
    amount: Option<real>)

  /** The data for `SepaMandate.createfull`: the contribution data plus the
      mandate entries. */
  datatype MandateData = MandateData(
    draft: Draft,
    mandateType: string,
    iban: string,
    bic: string,
    creditorId: int,
    startDate: string)

  /** The data for `Contribution.create` on the PayPal branch. */
  datatype ContributionData = ContributionData(draft: Draft, paymentInstrument: int, status: string)

  /** The data for the first `Membership.create`, before the host resolves
      custom-field aliases in it. */
  datatype MembershipData = MembershipData(
    membershipType: string,
    campaignId: string,
    contactId: int,
    source: string,
    subtype: Option<string>,
    startDate: string,
    endDate: DateExpr,
    joinDate: DateExpr,
    annual: Option<real>)

  /** The data for the second `Membership.create`, which only links the
      membership to its recurring contribution. */
  datatype MembershipUpdate = MembershipUpdate(id: int, contactId: int, paidThrough: int)

  datatype GroupContactData = GroupContactData(groupId: int, contactId: int, status: string)

  /** The data of the activity recorded for a failed donation. */
  datatype ActivityData = ActivityData(
    assignee: Option<int>,
    activityType: string,
    subject: string,
    date: DateExpr,
    sourceContact: int,
    status: string,
    target: int,
    campaignId: string,
    details: DonationRequest)

  datatype Call =
    | ExtractCampaign
    | GetGenderOptions
    | GetOrCreateContact(contact: ContactData)
    | VerifyIban(iban: string)
    | VerifyBic(bic: string)
    | CreateMandate(mandate: MandateData)
    | LoadContribution(contributionId: int)
    | LoadRecurringContribution(recurringId: int)
    | CreateContribution(contribution: ContributionData)
    | CreateMembership(membership: MembershipData)
    | LoadMembership(membershipId: int)
    | UpdateMembership(update: MembershipUpdate)
    | SubmitNewsletter(subscriber: int, newsletter: int)
    | SetGroupStatus(groupContact: GroupContactData)
    | ForceRollback
    | CreateActivity(activity: ActivityData)

  /** Calls that create the donation's contribution: a mandate with its
      contribution, or a completed contribution. */
  predicate CreatesPayment(c: Call) {
    c.CreateMandate? || c.CreateContribution?
  }

  predicate IsContactLookup(c: Call) { c.GetOrCreateContact? }
  predicate IsMembershipCreate(c: Call) { c.CreateMembership? }
  predicate IsMembershipLoad(c: Call) { c.LoadMembership? }
  predicate IsMembershipUpdate(c: Call) { c.UpdateMembership? }
  predicate IsNewsletterSubmit(c: Call) { c.SubmitNewsletter? }
  predicate IsGroupStatus(c: Call) { c.SetGroupStatus? }
  predicate IsRollback(c: Call) { c.ForceRollback? }
  predicate IsActivity(c: Call) { c.CreateActivity? }

  /** The step of the donation operation that issues a call; the newsletter
      operation's group call counts with the newsletter step. */
  datatype Step = CampaignStep | DonorStep | PaymentStep | MembershipStep | NewsletterStep | CompensationStep

  function StepOf(c: Call): Step {
    match c
    case ExtractCampaign => CampaignStep
    case GetGenderOptions => DonorStep
    case GetOrCreateContact(_) => DonorStep
    case VerifyIban(_) => PaymentStep
    case VerifyBic(_) => PaymentStep
    case CreateMandate(_) => PaymentStep
    case LoadContribution(_) => PaymentStep
    case LoadRecurringContribution(_) => PaymentStep
    case CreateContribution(_) => PaymentStep
    case CreateMembership(_) => MembershipStep
    case LoadMembership(_) => MembershipStep
    case UpdateMembership(_) => MembershipStep
    case SubmitNewsletter(_, _) => NewsletterStep
    case SetGroupStatus(_) => NewsletterStep
    case ForceRollback => CompensationStep
    case CreateActivity(_) => CompensationStep
  }

  /** The step of each kind of call the properties speak about. */
  lemma StepOfKind(c: Call)
    ensures c.GetOrCreateContact? ==> StepOf(c) == DonorStep
    ensures c.CreateMandate? || c.CreateContribution? ==> StepOf(c) == PaymentStep
    ensures c.CreateMembership? || c.LoadMembership? || c.UpdateMembership? ==> StepOf(c) == MembershipStep
    ensures c.SubmitNewsletter? ==> StepOf(c) == NewsletterStep
  {
  }

  /** Every call of the trace is issued by step s. */
  predicate AllOfStep(calls: seq<Call>, s: Step) {
    forall i :: 0 <= i < |calls| ==> StepOf(calls[i]) == s
  }

  /** How many calls of a trace satisfy p. */
  function Count(calls: seq<Call>, p: Call -> bool): nat {
    if |calls| == 0 then 0
    else (if p(calls[0]) then 1 else 0) + Count(calls[1..], p)
  }

  lemma {:induction false} CountConcat(a: seq<Call>, b: seq<Call>, p: Call -> bool)
    ensures Count(a + b, p) == Count(a, p) + Count(b, p)
  {
    if |a| == 0 {
      assert a + b == b;
    } else {
      assert (a + b)[1..] == a[1..] + b;
      CountConcat(a[1..], b, p);
    }
  }

  /** A trace has no call satisfying p exactly when its count is zero. */
  lemma {:induction false} CountZero(calls: seq<Call>, p: Call -> bool)
    ensures Count(calls, p) == 0 <==> forall i :: 0 <= i < |calls| ==> !p(calls[i])
  {
    if |calls| > 0 {
      CountZero(calls[1..], p);
      assert forall i :: 1 <= i < |calls| ==> calls[i] == calls[1..][i - 1];
    }
  }

  /** A trace where exactly the call at position k satisfies p counts one
      such call, and none when k is outside the trace. */
  lemma {:induction false} CountByPosition(calls: seq<Call>, p: Call -> bool, k: int)
    requires forall i :: 0 <= i < |calls| ==> (p(calls[i]) <==> i == k)
    ensures Count(calls, p) == (if 0 <= k < |calls| then 1 else 0)
  {
    if |calls| > 0 {
      assert forall i :: 0 <= i < |calls[1..]| ==> calls[1..][i] == calls[i + 1];
      CountByPosition(calls[1..], p, k - 1);
    }
  }

  lemma CountOne(c: Call, p: Call -> bool)
    ensures Count([c], p) == if p(c) then 1 else 0
  {
  }

  /** Only step t issues calls satisfying p. */
  ghost predicate OnlyIn(p: Call -> bool, t: Step) {
    forall c :: p(c) ==> StepOf(c) == t
  }

  /** The step that alone issues each kind of call the properties count. */
  lemma KindSteps()
    ensures OnlyIn(IsContactLookup, DonorStep)
    ensures OnlyIn(CreatesPayment, PaymentStep)
    ensures OnlyIn(IsMembershipCreate, MembershipStep)
    ensures OnlyIn(IsMembershipLoad, MembershipStep)
    ensures OnlyIn(IsMembershipUpdate, MembershipStep)
    ensures OnlyIn(IsNewsletterSubmit, NewsletterStep)
    ensures OnlyIn(IsRollback, CompensationStep)
    ensures OnlyIn(IsActivity, CompensationStep)
  {
  }

  /** A trace issued by one step holds no call that only another step issues. */
  lemma CountOtherStep(calls: seq<Call>, s: Step, p: Call -> bool, t: Step)
    requires AllOfStep(calls, s)
    requires OnlyIn(p, t)
    requires s != t
    ensures Count(calls, p) == 0
  {
    CountZero(calls, p);
  }

  /** A part of an operation: the calls it issued and what it produced, or the
      exception that ended it. */
  datatype Attempt<+T> = Attempt(calls: seq<Call>, reply: Reply<T>)

  const ContactUnresolved := "Individual contact could not be found or created."

  /** Asks the host for the Individual contact matching the data, creating it
      if there is none. The host answers with an id; 0 stands for no id. */
  function ResolveContact(data: ContactData, answer: Reply<int>): (r: Attempt<int>)
    ensures r.calls == [GetOrCreateContact(data)]
    ensures r.reply.Returned? <==> answer.Returned? && answer.value != 0
    ensures r.reply.Returned? ==> r.reply.value == answer.value
    ensures answer == Returned(0) ==>
              r.reply == Raised(Exception(ContactUnresolved, InvalidFormat, NoExtra))
    ensures answer.Raised? ==> r.reply == Raised(answer.error)
  {
    var calls := [GetOrCreateContact(data)];
    match answer
    case Raised(e) => Attempt(calls, Raised(e))
    case Returned(id) =>
      if id == 0 then Attempt(calls, Raised(Exception(ContactUnresolved, InvalidFormat, NoExtra)))
      else Attempt(calls, Returned(id))
  }
}

=== FILE: newsletter.dfy ===
/** `ProvegNewsletterSubscription.submit`: picks a contact, either the one
    given by id or the one found or created for an e-mail address, and sets
    its status in the configured newsletter group to Added or Removed. */
module NewsletterSubscription {
  import opened Php
  import opened Requests
  import opened Host

  /** The host's answers to the calls the operation may issue. */
  datatype SubscriptionHost = SubscriptionHost(
    contact: Reply<int>,          // contact lookup by e-mail
    settings: map<string, int>,   // stored configuration settings
    groupContact: Reply<Record>)  // GroupContact.create

  datatype SubscriptionResponse =
    | Subscribed(values: Record)
    | Refused(message: string, code: ErrorCode, extra: Extra)

  datatype Run = Run(calls: seq<Call>, response: SubscriptionResponse)

  const EmailMissing := "Mandatory key(s) missing from params array: email"
  const MissingEmail := MissingFields(["email"], "ProvegNewsletterSubscription", "submit")
  const DefaultNewsletterGroup := 1000

  /** The contact data the e-mail alone is resolved with. */
  function EmailOnly(email: string): ContactData {
    ContactData(map["email" := email], NoGender)
  }

  /** A contact is known: given by id, or resolved from a non-empty e-mail. */
  predicate ContactKnown(req: SubscriptionRequest, host: SubscriptionHost) {
    !EmptyInt(req.contactId) ||
    (!EmptyString(req.email) && host.contact.Returned? && host.contact.value != 0)
  }

  /** The contact the group status is set for, once it is known. */
  function Subscriber(req: SubscriptionRequest, host: SubscriptionHost): int
    requires ContactKnown(req, host)
  {
    if !EmptyInt(req.contactId) then req.contactId else host.contact.value
  }

  function SelectContact(req: SubscriptionRequest, host: SubscriptionHost): Attempt<int> {
    if !EmptyInt(req.contactId) then Attempt([], Returned(req.contactId))
    else if EmptyString(req.email) then
      Attempt([], Raised(Exception(EmailMissing, MandatoryMissing, MissingEmail)))
    else ResolveContact(EmailOnly(req.email), host.contact)
  }

  /** The status the newsletter flag asks for. */
  function GroupStatus(newsletter: int): string {
    if !EmptyInt(newsletter) then "Added" else "Removed"
  }

  function Submit(req: SubscriptionRequest, host: SubscriptionHost): (r: Run)
    // a given contact id is used as it is
    ensures !EmptyInt(req.contactId) ==> Count(r.calls, IsContactLookup) == 0
    // without an id the e-mail is mandatory
    ensures EmptyInt(req.contactId) && EmptyString(req.email) ==>
              r == Run([], Refused(EmailMissing, MandatoryMissing, MissingEmail))
    // otherwise the e-mail alone is resolved to a contact, and no id is an error
    ensures EmptyInt(req.contactId) && !EmptyString(req.email) ==>
              |r.calls| > 0 && r.calls[0] == GetOrCreateContact(EmailOnly(req.email))
    ensures EmptyInt(req.contactId) && !EmptyString(req.email) && host.contact == Returned(0) ==>
              r == Run([GetOrCreateContact(EmailOnly(req.email))],
                       Refused(ContactUnresolved, InvalidFormat, NoExtra))
    // exactly one group call once a contact is known, none before
    ensures Count(r.calls, IsGroupStatus) == (if ContactKnown(req, host) then 1 else 0)
    ensures forall i :: 0 <= i < |r.calls| && r.calls[i].SetGroupStatus? ==>
              ContactKnown(req, host) &&
              r.calls[i].groupContact ==
                GroupContactData(GetSetting(host.settings, "newsletter_group", DefaultNewsletterGroup),
                                 Subscriber(req, host), GroupStatus(req.newsletter))
    ensures r.response.Subscribed? <==> ContactKnown(req, host) && host.groupContact.Returned?
    ensures r.response.Subscribed? ==> r.response.values == host.groupContact.value
    // a failing host call is reported with its own message, code and extras
    ensures EmptyInt(req.contactId) && !EmptyString(req.email) && host.contact.Raised? ==>
              r.response == Refused(host.contact.error.message, host.contact.error.code, host.contact.error.extra)
    ensures ContactKnown(req, host) && host.groupContact.Raised? ==>
              r.response == Refused(host.groupContact.error.message, host.groupContact.error.code,
                                    host.groupContact.error.extra)
    // the error path has no compensating calls
    ensures Count(r.calls, IsRollback) == 0 && Count(r.calls, IsActivity) == 0
  {
    var selected := SelectContact(req, host);
    match selected.reply
    case Raised(e) =>
      CountZero(selected.calls, IsGroupStatus);
      CountZero(selected.calls, IsRollback);
      CountZero(selected.calls, IsActivity);
      Run(selected.calls, Refused(e.message, e.code, e.extra))
    case Returned(contactId) =>
      var data := GroupContactData(GetSetting(host.settings, "newsletter_group", DefaultNewsletterGroup),
                                   contactId, GroupStatus(req.newsletter));
      var calls := selected.calls + [SetGroupStatus(data)];
      CountConcat(selected.calls, [SetGroupStatus(data)], IsContactLookup);
      CountConcat(selected.calls, [SetGroupStatus(data)], IsGroupStatus);
      CountConcat(selected.calls, [SetGroupStatus(data)], IsRollback);
      CountConcat(selected.calls, [SetGroupStatus(data)], IsActivity);
      CountZero(selected.calls, IsGroupStatus);
      CountZero(selected.calls, IsRollback);
      CountZero(selected.calls, IsActivity);
      match host.groupContact
      case Raised(e) => Run(calls, Refused(e.message, e.code, e.extra))
      case Returned(g) => Run(calls, Subscribed(g))
  }

  /** The host's group-membership state: the status last set for each
      (group, contact) pair. Setting a status overwrites the previous one. */
  type GroupState = map<(int, int), string>

  function ApplyCall(s: GroupState, c: Call): GroupState {
    if c.SetGroupStatus? then
      s[(c.groupContact.groupId, c.groupContact.contactId) := c.groupContact.status]
    else s
  }

  function Apply(s: GroupState, calls: seq<Call>): GroupState
    decreases |calls|
  {
    if |calls| == 0 then s else Apply(ApplyCall(s, calls[0]), calls[1..])
  }

  /** The statuses a trace sets, each pair holding the last one set for it. */
  function LastStatuses(calls: seq<Call>): GroupState {
    if |calls| == 0 then map[] else ApplyCall(map[], calls[0]) + LastStatuses(calls[1..])
  }

  lemma {:induction false} ApplyOverrides(s: GroupState, calls: seq<Call>)
    ensures Apply(s, calls) == s + LastStatuses(calls)
    decreases |calls|
  {
    if |calls| > 0 {
      var w := ApplyCall(map[], calls[0]);
      ApplyOverrides(ApplyCall(s, calls[0]), calls[1..]);
      ApplyCallMerges(s, calls[0]);
      MergeAssociates(s, w, LastStatuses(calls[1..]));
    }
  }

  /** One call sets at most one status, over whatever the state held. */
  lemma ApplyCallMerges(s: GroupState, c: Call)
    ensures ApplyCall(s, c) == s + ApplyCall(map[], c)
  {
  }

  lemma MergeAssociates(a: GroupState, b: GroupState, c: GroupState)
    ensures (a + b) + c == a + (b + c)
  {
  }

  /** Setting statuses overwrites, so replaying any trace of calls changes
      nothing the trace itself has not already set. */
  lemma ReplayChangesNothing(s: GroupState, calls: seq<Call>)
    ensures Apply(Apply(s, calls), calls) == Apply(s, calls)
  {
    var w := LastStatuses(calls);
    ApplyOverrides(s, calls);
    ApplyOverrides(s + w, calls);
    assert (s + w) + w == s + w;
  }

  /** A successful submission repeated with the same settings, where the
      second e-mail lookup finds the contact the first one resolved or
      created, sets the same status for the same contact, and so leaves the
      group memberships as the first submission left them, whether or not
      the second group call succeeds. */
  lemma ResubmitLeavesGroupsUnchanged(req: SubscriptionRequest, first: SubscriptionHost,
                                      second: SubscriptionHost, s: GroupState)
    requires Submit(req, first).response.Subscribed?
    requires second.settings == first.settings
    requires EmptyInt(req.contactId) ==> second.contact == Returned(Subscriber(req, first))
    ensures ContactKnown(req, second) && Subscriber(req, second) == Subscriber(req, first)
    ensures var after := Apply(s, Submit(req, first).calls);
            Apply(after, Submit(req, second).calls) == after
  {
    assert SelectContact(req, second) == SelectContact(req, first);
    assert Submit(req, second).calls == Submit(req, first).calls;
    ReplayChangesNothing(s, Submit(req, first).calls);
  }

  /** After a successful submission the subscriber's status in the
      newsletter group is the one the flag asks for. */
  lemma SubscribedStatus(req: SubscriptionRequest, host: SubscriptionHost, s: GroupState)
    requires Submit(req, host).response.Subscribed?
    ensures var group := GetSetting(host.settings, "newsletter_group", DefaultNewsletterGroup);
            var after := Apply(s, Submit(req, host).calls);
            (group, Subscriber(req, host)) in after &&
            after[(group, Subscriber(req, host))] == GroupStatus(req.newsletter)
  {
    var r := Submit(req, host);
    var selected := SelectContact(req, host);
    var group := GetSetting(host.settings, "newsletter_group", DefaultNewsletterGroup);
    var data := GroupContactData(group, Subscriber(req, host), GroupStatus(req.newsletter));
    assert r.calls == selected.calls + [SetGroupStatus(data)];
    assert Apply(s, r.calls) == ApplyCall(Apply(s, selected.calls), SetGroupStatus(data)) by {
      ApplySplit(s, selected.calls, [SetGroupStatus(data)]);
    }
  }

  lemma {:induction false} ApplySplit(s: GroupState, a: seq<Call>, b: seq<Call>)
    ensures Apply(s, a + b) == Apply(Apply(s, a), b)
    decreases |a|
  {
    if |a| > 0 {
      assert (a + b)[1..] == a[1..] + b;
      ApplySplit(ApplyCall(s, a[0]), a[1..], b);
    } else {
      assert a + b == b;
    }
  }
}

=== FILE: php.dfy ===
/** The small part of PHP and of the host's API-v3 conventions that both
    remote operations rely on: `empty()` on request parameters, settings with
    defaults, exceptions carrying a code and extra parameters, and the answer
    of a host call, which either returns a value or throws. */
module Php {

  datatype Option<+T> = None | Some(value: T)

  /** PHP's `empty()` on a string parameter. An absent parameter is modelled
      as the empty string, which `empty()` treats the same way. */
  predicate EmptyString(s: string) {
    s == "" || s == "0"
  }

  /** PHP's `empty()` on an integer parameter. An absent parameter is
      modelled as 0. */
  predicate EmptyInt(i: int) {
    i == 0
  }

  /** The code an exception is raised with. `CodeZero` is the bare code 0
      used for an unknown gender; `OtherCode` is whatever a failing host
      call raises with. */
  datatype ErrorCode = InvalidFormat | MandatoryMissing | CodeZero | OtherCode(name: string)

  /** The extra parameters an exception carries besides its code. */
  datatype Extra =
    | NoExtra
    | MissingFields(fields: seq<string>, entity: string, action: string)
    | HostDetail(detail: string)

  datatype Exception = Exception(message: string, code: ErrorCode, extra: Extra)

  /** The answer of one host call: the value it returns, or the exception it
      throws. */
  datatype Reply<+T> = Returned(value: T) | Raised(error: Exception)

  /** An entity record as the host returns it. */
  datatype Record = Record(id: int, contactId: int, fields: map<string, string>)

  /** A configuration setting, or the default the caller supplies when the
      setting is not stored. */
  function GetSetting(settings: map<string, int>, name: string, default: int): int {
    if name in settings then settings[name] else default
  }
}

=== FILE: php_array.dfy ===
/** An ordered PHP array with string keys and string values, as the donation
    operation builds it from the gender option values and then searches by
    name. Assigning to an existing key keeps that key's position and replaces
    its value; assigning to a new key appends it. */
module PhpArray {
  import opened Php

  type Table = seq<(string, string)>

  function Keys(t: Table): set<string> {
    if |t| == 0 then {} else {t[0].0} + Keys(t[1..])
  }

  /** No key occurs twice: the shape every PHP array has. */
  predicate DistinctKeys(t: Table) {
    |t| == 0 || (t[0].0 !in Keys(t[1..]) && DistinctKeys(t[1..]))
  }

  /** `$t[$k]`, or None when the key is not set. */
  function Lookup(t: Table, k: string): (r: Option<string>)
    ensures r.Some? <==> k in Keys(t)
  {
    if |t| == 0 then None
    else if t[0].0 == k then Some(t[0].1)
    else Lookup(t[1..], k)
  }

  /** Every entry's key is among the keys. */
  lemma {:induction false} KeysAt(t: Table)
    ensures forall i :: 0 <= i < |t| ==> t[i].0 in Keys(t)
  {
    if |t| > 0 {
      KeysAt(t[1..]);
      assert forall i :: 1 <= i < |t| ==> t[i] == t[1..][i - 1];
    }
  }

  /** `$t[$k] = $v`. */
  function Assign(t: Table, k: string, v: string): (r: Table)
    requires DistinctKeys(t)
    ensures DistinctKeys(r)
    ensures Keys(r) == Keys(t) + {k}
    ensures Lookup(r, k) == Some(v)
    ensures forall k' :: k' != k ==> Lookup(r, k') == Lookup(t, k')
    // an existing key keeps its position, a new key is appended
    ensures k in Keys(t) ==>
              |r| == |t| && forall i :: 0 <= i < |t| ==> r[i] == (if t[i].0 == k then (k, v) else t[i])
    ensures k !in Keys(t) ==> r == t + [(k, v)]
  {
    if |t| == 0 then [(k, v)]
    else if t[0].0 == k then KeysAt(t[1..]); [(k, v)] + t[1..]
    else [t[0]] + Assign(t[1..], k, v)
  }

  /** `array_search($v, $t)`: the key of the first entry whose value is v,
      or None (PHP's `false`) when no entry has that value. */
  function Search(t: Table, v: string): (r: Option<string>)
    requires DistinctKeys(t)
    ensures r.Some? ==> Lookup(t, r.value) == Some(v)
    ensures r.None? ==> forall k :: Lookup(t, k) != Some(v)
    // the key is the first one in array order holding v: it occurs no later
    // than any entry holding v
    ensures r.Some? ==> forall j :: 0 <= j < |t| && t[j].1 == v ==> r.value in Keys(t[..j + 1])
  {
    if |t| == 0 then None
    else if t[0].1 == v then PrefixKeys(t); Some(t[0].0)
    else PrefixKeys(t); Search(t[1..], v)
  }

  /** A non-empty prefix holds the first key and the keys of the rest's prefix. */
  lemma PrefixKeys(t: Table)
    requires |t| > 0
    ensures forall j :: 0 <= j < |t| ==> Keys(t[..j + 1]) == {t[0].0} + Keys(t[1..][..j])
  {
    forall j | 0 <= j < |t|
      ensures Keys(t[..j + 1]) == {t[0].0} + Keys(t[1..][..j])
    {
      assert t[..j + 1][1..] == t[1..][..j];
    }
  }

  /** `foreach ($entries as $e) { $t[$e.0] = $e.1; }` from an empty array. */
  function Build(entries: seq<(string, string)>): (t: Table)
    ensures DistinctKeys(t)
  {
    if |entries| == 0 then []
    else
      var last := entries[|entries| - 1];
      Assign(Build(entries[..|entries| - 1]), last.0, last.1)
  }

  /** The entry at index i is the last one that assigns key k. */
  predicate LastAssignment(entries: seq<(string, string)>, i: int, k: string) {
    0 <= i < |entries| && entries[i].0 == k &&
    forall j :: i < j < |entries| ==> entries[j].0 != k
  }

  /** After the loop, key k holds n exactly when the last entry assigning k
      carries n: later assignments overwrite earlier ones. */
  lemma {:induction false} BuildLookup(entries: seq<(string, string)>, k: string, n: string)
    ensures Lookup(Build(entries), k) == Some(n) <==>
            exists i :: LastAssignment(entries, i, k) && entries[i].1 == n
  {
    if |entries| == 0 {
    } else {
      var m := |entries| - 1;
      var prefix := entries[..m];
      BuildLookup(prefix, k, n);
      if entries[m].0 == k {
        assert LastAssignment(entries, m, k);
        forall i | LastAssignment(entries, i, k)
          ensures i == m
        {
        }
      } else {
        forall i | 0 <= i < m
          ensures LastAssignment(entries, i, k) <==> LastAssignment(prefix, i, k)
        {
          assert prefix[i] == entries[i];
          if LastAssignment(prefix, i, k) {
            forall j | i < j < |entries|
              ensures entries[j].0 != k
            {
              if j < m {
                assert prefix[j] == entries[j];
              }
            }
          }
          if LastAssignment(entries, i, k) {
            forall j | i < j < |prefix|
              ensures prefix[j].0 != k
            {
              assert prefix[j] == entries[j];
            }
          }
        }
        if Lookup(Build(entries), k) == Some(n) {
          var i :| LastAssignment(prefix, i, k) && prefix[i].1 == n;
          assert LastAssignment(entries, i, k) && entries[i].1 == n;
        }
        if exists i :: LastAssignment(entries, i, k) && entries[i].1 == n {
          var i :| LastAssignment(entries, i, k) && entries[i].1 == n;
          assert i != m;
          assert LastAssignment(prefix, i, k) && prefix[i].1 == n;
        }
      }
    }
  }
}

=== FILE: requests.dfy ===
/** The flat parameter sets the two remote operations receive. */
module Requests {

  /** The parameters of `ProvegDonation.submit`. `amount` is in euro cents and
      `frequency` is the number of instalments per year, 0 for a one-off
      donation. `receiveDate` is a Unix timestamp, 0 when absent. */
  datatype DonationRequest = DonationRequest(
    amount: int,
    frequency: int,
    firstName: string,
    lastName: string,
    email: string,
    streetAddress: string,
    postalCode: string,
    city: string,
    country: string,
    gender: string,
    paymentInstrument: string,
    iban: string,
    bic: string,
    accountHolder: string,
    membershipType: string,
    membershipSubtype: string,
    newsletter: int,
    campaignId: string,
    campaignCode: string,
    receiveDate: int,
    contributionSource: string)

  /** The parameters of `ProvegNewsletterSubscription.submit`; a contact id of
      0 stands for an absent one. */
  datatype SubscriptionRequest = SubscriptionRequest(email: string, newsletter: int, contactId: int)
}
